=== FILE: README.md ===
# volume-provider, modelled in Dafny

volume-provider is a small HTTP service that creates, mounts and deletes
database volumes on several clouds. The same operations run against Amazon
EBS, a FaaS export service, Kubernetes persistent volume claims and Google
compute. This project models its core:

- the stored documents (`Volume`, `Snapshot`) and their rules: field
  validation, group membership, size conversion and cascading deletes;
- the credential store: one document per (provider, environment), cached
  reads, upserting saves and the exact-key validation each provider applies;
- the provider base class: lazily built, memoised client and credential;
  `credential_add`; the registry lookup behind the HTTP routes;
- the EBS adapter: the polling wait with its 60 attempts, mount (attach
  between two waits), delete (detach, wait, destroy) and create;
- the FaaS client and adapter: status-code checking, idempotent access
  grants, job polling, and export creation that shares the group's resource;
- the Kubernetes adapter's claim creation and deletion, and its snapshots;
- the compute-operation wait and its status classifier;
- the team-service tags;
- the volume-creation endpoint, its basic-auth check and its response helpers.

Every external service is a function-typed parameter. It maps the history
of calls made so far, together with the new call, to the reply. Each
operation returns the calls it made, so contracts speak about order: the
attach lies between the two waits, a destroy comes only after an
'available' poll, no call is made on a refused path.
Python exceptions are the `Exc` datatype inside a `Result`. Values that
Python keeps untyped are the `Json` datatype.

Where the code and its tests disagree, the model follows the code:

- `providers/__init__.py` imports only the FaaS adapter, so the registry
  that `get_provider_to` searches is `[FaaS]`. `ebs` and `k8s` are not
  found there, even though their adapters exist.
- `CredentialAdd.is_valid` never returns on success. The model keeps that
  behaviour in the as-written members and proves the corrected flow
  separately (see Findings).

## Model

| member | source | states |
|---|---|---|
| Values.Index | volume_provider/providers/faas.py:30-32 | `x['key']` succeeds exactly on a dict holding the key and yields its value; a missing key is KeyError naming it |
| Values.PyInt | volume_provider/providers/k8s.py:54 | `int()` keeps ints, reads decimal text as a non-negative number, rejects the empty string with ValueError and None, lists and dicts with TypeError |
| Values.PyIntOfDecimalText | volume_provider/providers/k8s.py:54 | `int()` of the decimal text of any natural number gives that number back |
| Values.DecimalOfNatToString | volume_provider/providers/k8s.py:54 | reading back the decimal text of n gives n (the round trip behind `int(str(n))`) |
| Values.Lookup | volume_provider/credentials/faas.py:6-36 | a credential property (here and in the EBS, compute and Kubernetes credentials alike) is the value stored under its key, present exactly when the key is; otherwise KeyError naming the key |
| Values.LookupOr | volume_provider/clients/team.py:48-55 | `dict.get(key, default)` is the stored value when the key is present and the default otherwise |
| Values.ScalarStr | volume_provider/providers/k8s.py:81 | `str()` of a scalar succeeds, and of a string is the string itself; lists and dicts are refused |
| Values.FirstIndex | volume_provider/models.py:21 | `.first()` is the first member in storage order that satisfies the filter; None means no member does |
| Values.Filter | volume_provider/models.py:42 | a query result holds exactly the stored members that satisfy the filter |
| Models.InvalidVolumeField | volume_provider/models.py:7-17 | a volume is rejected exactly when it is not `Storable`: one of the six required fields is unset or a string exceeds its max_length; the rejected field is one of the nine declared ones |
| Models.SaveNewVolume | volume_provider/models.py:7-17 | `save()` stores the volume under a fresh id exactly when validation passes; otherwise ValidationError and nothing is stored |
| Models.SetGroup | volume_provider/models.py:19-23 | the group is recorded; the resource is that of the group's first stored volume, unchanged for a new group; nothing else changes |
| Models.Pairs | volume_provider/models.py:40-42 | `pairs` are exactly the stored volumes that share this volume's group |
| Models.GetJson | volume_provider/models.py:29-38 | the JSON view has exactly the six volume keys and none of the commented-out ones |
| Models.GetJsonRoundTrip | volume_provider/models.py:29-38 | decoding the JSON view gives back the six public fields; the id and the unpublished zone, vm_name, labels and disk_offering_type come back cleared |
| Models.RoundHalfEven | volume_provider/models.py:44-46 | Python's `round` of a quotient: the error is at most half the divisor, and an exact tie goes to the even neighbour |
| Models.RoundHalfEvenUnique | volume_provider/models.py:44-46 | any integer with those two properties equals `RoundHalfEven`, which makes it an independent definition of `round` |
| Models.NearestEvenUnique | volume_provider/models.py:44-46 | two nearest-with-ties-to-even candidates for the same quotient coincide |
| Models.ConvertExactOnWholeGb | volume_provider/models.py:44-46 | a whole number of gigabytes in kilobytes converts back to exactly that number |
| Models.ConvertTiesToEven | volume_provider/models.py:44-46 | half a gigabyte rounds to 0 and one and a half to 2 (banker's rounding, not half-up) |
| Models.ConvertMonotone | volume_provider/models.py:44-46 | a larger size in kilobytes never converts to fewer gigabytes |
| Models.ConvertKbToGb | volume_provider/models.py:44-46 | `convert_kb_to_gb` is the whole number of gigabytes nearest the size, with an exact half going to the even neighbour |
| Models.SizeGb | volume_provider/models.py:48-50 | `size_gb` succeeds exactly when the size is set, and is then the rounded conversion |
| Models.Snapshots | volume_provider/models.py:52-54 | a volume's snapshots are exactly the stored snapshots that reference it |
| Models.DeleteVolume | volume_provider/models.py:57-63 | deleting a volume removes it and, by CASCADE, exactly the snapshots that reference it |
| Models.CascadeLeavesNoSnapshots | volume_provider/models.py:58 | after the delete the volume has no snapshots, and every other volume keeps exactly its own |
| Models.SnapshotToJson | volume_provider/models.py:69-76 | the JSON view has five keys; `path` carries the description and `description` itself is absent; `volume` is the referenced volume's id; `id` is the document's id, read as `self._id` |
| Credentials.FindOne | volume_provider/credentials/base.py:45-48 | `find_one` yields a stored document matching the filter, and None exactly when none matches |
| Credentials.GetContent | volume_provider/credentials/base.py:44-54 | the content is found exactly when a document matches the (provider, environment) key; otherwise NotImplementedError naming both |
| Credentials.Content | volume_provider/credentials/base.py:56-60 | a cached content is returned without a query; otherwise it is fetched and cached on success only |
| Credentials.ContentFetchedOnce | volume_provider/credentials/base.py:56-60 | a second read after a successful one makes no query and returns the same content |
| Credentials.SetFields | volume_provider/credentials/base.py:76-80 | the saved document is the content plus `provider` and `environment`; a key the content already has keeps its value |
| Credentials.Save | volume_provider/credentials/base.py:70-82 | with no document under the key, a new one is inserted under a fresh id; otherwise the first one is updated in place, keeping its id and every other document |
| Credentials.SaveThenGetContent | volume_provider/credentials/base.py:70-82 | after saving content whose own key fields agree, `get_content` finds the saved document |
| Credentials.SavedIsFound | volume_provider/credentials/base.py:70-82 | a saved document that matches its key is the one `find_one` returns afterwards |
| Credentials.FirstMatchAt | volume_provider/credentials/base.py:45-48 | `find_one` returns the first matching document in storage order |
| Credentials.Delete | volume_provider/credentials/base.py:84-87 | `delete_one` removes the first document matching the key and nothing else; a missing key leaves the store unchanged |
| Credentials.RequiredMessage | volume_provider/credentials/base.py:94 | the error text starts with "Required fields " |
| Credentials.IsValid | volume_provider/credentials/base.py:93-100 | the corrected `is_valid`: valid exactly when the content has as many keys as the valid fields and holds each of them; the error text is always the required-fields message |
| Credentials.IsValidAsWritten | volume_provider/credentials/base.py:93-100 | `is_valid` as written: the rejecting verdict for content that is not accepted, and None (no return) for content that is |
| Credentials.AcceptsIffSameKeys | volume_provider/credentials/base.py:95-100 | for a list without repeats, the length check plus the membership check holds exactly when the content's keys are the listed fields |
| Credentials.DistinctCardinality | volume_provider/credentials/base.py:95-96 | a field list without repeats has as many distinct names as entries, which is what makes the length check meaningful |
| CredentialsAws.Device | volume_provider/credentials/aws.py:22-24 | the device is always '/dev/sdf', whatever the content |
| CredentialsAws.Iops | volume_provider/credentials/aws.py:26-28 | the value under `iops`, or None by default |
| CredentialsAws.ForceDetach | volume_provider/credentials/aws.py:30-32 | the value under `force_detach`, or False by default |
| CredentialsAws.AwsValidIffExactKeys | volume_provider/credentials/aws.py:35-41 | EBS content is accepted exactly when its keys are the five listed fields |
| CredentialsAws.AwsValidatedUsesDefaults | volume_provider/credentials/aws.py:26-41 | accepted EBS content cannot carry `iops` or `force_detach`, so both always take their defaults |
| CredentialsGce.GceValidIffExactKeys | volume_provider/credentials/gce.py:23-29 | compute content is accepted exactly when its keys are the ten listed fields |
| CredentialsGce.GceFixtureRejected | volume_provider/tests/test_providers/test_gce.py:30-35 | the eight-key fixture credential, without `region` and `scopes`, is rejected with the required-fields message |
| CredentialsGce.GceSavedKeyComesFromContent | volume_provider/credentials/gce.py:23-29 | accepted compute content includes `provider` and `environment`, so the saved document keeps the content's own values for them |
| CredentialsFaaS.FaaSFieldsDistinct | volume_provider/credentials/faas.py:39-46 | the FaaS field list names no field twice |
| CredentialsFaaS.FaaSValidIffExactKeys | volume_provider/credentials/faas.py:39-46 | FaaS content is accepted exactly when its keys are the eight listed fields |
| CredentialsFaaS.FaaSMissingOrExtraRejected | volume_provider/credentials/faas.py:39-46 | content that lacks `tenant_id`, or has nine keys, is rejected |
| CredentialsK8s.K8sValidIffExactKeys | volume_provider/credentials/k8s.py:15-19 | Kubernetes content is accepted exactly when its keys are the two listed fields |
| CredentialsK8s.K8sWrongKeysRejected | volume_provider/credentials/k8s.py:15-19 | three keys, or two without the config content, are rejected with the required-fields message |
| Memo.Force | volume_provider/providers/base.py:8-12 | a cached truthy value is returned without building; otherwise the build runs and a successful result is cached |
| Memo.ForceBuildsOnce | volume_provider/providers/base.py:8-12 | after one successful truthy build, a second access builds nothing and returns the same value |
| Providers.GetProvider | volume_provider/providers/base.py:34-40 | every adapter has a provider name; the base class raises NotImplementedError |
| Providers.ProviderNamesDistinct | volume_provider/providers/faas.py:10-12 | two different adapters never share a provider name |
| Providers.ValidFields | volume_provider/providers/base.py:48-49 | each adapter's credential fields are a list without repeats; the base class has none |
| Providers.BuildCredential | volume_provider/providers/faas.py:17-18 | an adapter's credential is a fresh, uncached credential for its own provider name and the environment |
| Providers.Client | volume_provider/providers/base.py:8-12 | the client is built only when no truthy client is cached, and only the client cell changes |
| Providers.Credential | volume_provider/providers/base.py:14-18 | the credential is built only when none is cached, and only the credential cell changes |
| Providers.ClientBuiltOnce | volume_provider/providers/base.py:8-12 | two consecutive client accesses build once |
| Providers.CredentialBuiltOnce | volume_provider/providers/base.py:14-18 | two consecutive credential accesses build once |
| Providers.CredentialAdd | volume_provider/providers/base.py:20-32 | corrected `credential_add`: rejected content returns the error and stores nothing; a save error is returned; otherwise the content is stored and the stored document's id is returned |
| Providers.CredentialAddAsWritten | volume_provider/providers/base.py:20-32 | as written, the store never changes, and every accepted content ends in TypeError from unpacking None |
| Providers.ValidContentNeverSavedAsWritten | volume_provider/providers/base.py:23 | concrete witness: a complete EBS credential is never saved and raises the unpacking TypeError |
| Providers.SavedIdAsWritten | volume_provider/providers/base.py:31-32 | `insert.get('_id')` on the pre-update document: AttributeError on the first save, the old id afterwards |
| Providers.FirstSaveIdAsWrittenFails | volume_provider/providers/base.py:27-32 | the first save under a key leaves no earlier document, so reading its id fails |
| Providers.UpdateIdsAgree | volume_provider/providers/base.py:31-32 | on an update, the id read from the pre-update document is the id the saved document keeps |
| Providers.GetProviderTo | volume_provider/providers/__init__.py:5-10 | lookup by name gives the first registered adapter with that name; an unknown name raises NotImplementedError naming it |
| Providers.RegisteredLookups | volume_provider/providers/__init__.py:1-10 | with only FaaS imported, 'faas' resolves and 'ebs' and 'k8s' raise |
| Providers.LookupFindsEachAdapter | volume_provider/providers/__init__.py:5-10 | every registered adapter is found by its own provider name |
| ProviderAws.GetNode | volume_provider/providers/aws.py:39-43 | the node is a listed node whose private address is the owner's; None exactly when no listed node has it |
| ProviderAws.GetEbs | volume_provider/providers/aws.py:53-60 | a volume is found exactly when the listing returns one volume with the identifier asked for |
| ProviderAws.PollFrom | volume_provider/providers/aws.py:62-70 | the poll count stays within the attempts left; every poll before the last missed the target state |
| ProviderAws.WaitBe | volume_provider/providers/aws.py:62-70 | a wait makes between 1 and 60 polls and ends as the last poll dictates |
| ProviderAws.PollStopsAtFirstHit | volume_provider/providers/aws.py:63-66 | if the first n polls miss and poll n+1 hits, polling stops there with True |
| ProviderAws.PollGivesUp | volume_provider/providers/aws.py:63-70 | if every poll misses, all are spent and the last volume seen decides the error |
| ProviderAws.WaitStopsAtFirstHit | volume_provider/providers/aws.py:62-66 | the 60-attempt wait returns True at the first poll that sees the target state |
| ProviderAws.WaitGivesUp | volume_provider/providers/aws.py:62-70 | after 60 misses the wait reports the last state seen |
| ProviderAws.AttachedTo | volume_provider/providers/aws.py:82 | the attachment check needs an attached volume and a known node, and is true exactly when the two ids agree |
| ProviderAws.Mount | volume_provider/providers/aws.py:78-89 | an unknown volume fails after the lookup; an in-use volume is reported as attached here or refused; otherwise attach then wait |
| ProviderAws.MountAttachesBetweenWaits | volume_provider/providers/aws.py:87-89 | a successful mount of a free volume attaches it after an 'available' poll and before an 'in-use' poll |
| ProviderAws.AttachBetweenWaits | volume_provider/providers/aws.py:87-89 | a successful wait, attach and wait puts the attach between the two waits' hits |
| ProviderAws.SequencedAttach | volume_provider/providers/aws.py:87-89 | the two landed waits around an attach form the attach-between-waits pattern |
| ProviderAws.AttachedBetweenPolls | volume_provider/providers/aws.py:87-89 | polls, one attach and more polls form the pattern with the attach at the boundary |
| ProviderAws.MountInUseNeverAttaches | volume_provider/providers/aws.py:81-86 | an in-use volume is never attached again; the mount succeeds exactly when it is in use on this node |
| ProviderAws.DeleteEbs | volume_provider/providers/aws.py:106-118 | the delete succeeds exactly when it destroys the volume, and the destroy is its last call; a free volume is destroyed at once; an in-use one goes through the detach path |
| ProviderAws.DeleteRefusedElsewhere | volume_provider/providers/aws.py:109-115 | a volume in use on another node is refused with the "not attached in instance" error after the lookup alone |
| ProviderAws.DeleteDetachesFirst | volume_provider/providers/aws.py:109-118 | a volume in use on this node is detached first, with the credential's force flag, and destroyed only after an 'available' poll |
| ProviderAws.DeleteInUse | volume_provider/providers/aws.py:109-118 | for an in-use volume: refused when attached elsewhere, otherwise detach, wait for 'available', then destroy |
| ProviderAws.DetachThenDestroy | volume_provider/providers/aws.py:116-118 | detach comes first, and the destroy follows only a successful wait for 'available' |
| ProviderAws.DeleteInUseElsewhereKeepsVolume | volume_provider/providers/aws.py:109-115 | a volume attached elsewhere is neither detached nor destroyed |
| ProviderAws.FindLocation | volume_provider/providers/aws.py:45-51 | the location is a listed one named by the node's zone; None exactly when none is |
| ProviderAws.CreateEbsVolume | volume_provider/providers/aws.py:91-101 | the volume is created exactly when the size is set, the owner's node is found, the credential holds `ebs_type` and the node's subnet is listed; an unset size fails with TypeError and an unknown owner with AttributeError; on success the request carries the size in GB, the node's name, the credential's type and iops and the subnet's location, and the volume records the new volume's id, its name and the fixed device |
| ProviderAws.RunPrimitive | volume_provider/providers/aws.py:120-155 | the remaining EBS primitives return None, issue no driver call and leave the volume as it was |
| ProviderAws.LastSegment | volume_provider/providers/aws.py:166 | `split('/')[-1]` is the suffix after the last '/', containing no '/' |
| ProviderAws.LastTwo | volume_provider/providers/aws.py:166 | `[-2:]` is the suffix of length two, or the whole of a shorter string |
| ProviderAws.DeviceOnHost | volume_provider/providers/aws.py:165-167 | the fixed device '/dev/sdf' appears on the host as '/dev/xvdf' |
| ProviderAws.CommandsMount | volume_provider/providers/aws.py:163-172 | the mount command exists exactly when the mount succeeds, with the same calls, and is `MountCommand` for '/dev/xvdf': install xfsprogs, format, create /data and mount there |
| ProviderAws.CleanUp | volume_provider/providers/aws.py:174-175 | there is nothing to clean up |
| FaaSClient.ExpectedStatus | volume_provider/clients/faas.py:34-88 | creations expect 201 and every other request 200 |
| FaaSClient.Connect | volume_provider/clients/faas.py:13-22 | the client is built exactly when the credential has `endpoint`, `user`, `password`, `project` and `is_secure` |
| FaaSClient.Checked | volume_provider/clients/faas.py:24-31 | a reply is accepted exactly when its status is the one expected; otherwise APIError with its status and content |
| FaaSClient.Execute | volume_provider/clients/faas.py:24-31 | one call is recorded and its reply checked |
| FaaSClient.Request | volume_provider/clients/faas.py:13-31 | no call is made when the client cannot be built |
| FaaSClient.CreateExport | volume_provider/clients/faas.py:34-35 | the export request is made only with a client and a category id |
| FaaSClient.ScanAccess | volume_provider/clients/faas.py:45-48 | the access found is the first whose host is the address; None exactly when every access is for another host |
| FaaSClient.FindAccess | volume_provider/clients/faas.py:46 | the access found belongs to the listed accesses and is for the address |
| FaaSClient.CheckAccessExist | volume_provider/clients/faas.py:45-48 | at most one listing call is made |
| FaaSClient.FoundAccessIsTruthy | volume_provider/clients/faas.py:51-53 | an access for the host is a non-empty dict, so the `if` sees it |
| FaaSClient.CreateAccess | volume_provider/clients/faas.py:50-57 | a grant is requested only when no access for the address was found |
| FaaSClient.CreateAccessIdempotent | volume_provider/clients/faas.py:50-53 | when an access for the address is listed, it is returned and no grant is requested |
| FaaSClient.FirstAccessIsFound | volume_provider/clients/faas.py:46-48 | the first access for the address is the one found |
| FaaSClient.CreateAccessWhenMissing | volume_provider/clients/faas.py:54-57 | without an access for the address, exactly one grant with the credential's access type follows the listing |
| FaaSClient.DeleteAccess | volume_provider/clients/faas.py:59-66 | a removal is requested only for an access that was found |
| FaaSClient.DeleteMissingAccessIsNoOp | volume_provider/clients/faas.py:60-62 | removing an access that does not exist lists once and returns True |
| FaaSClient.DeleteExport | volume_provider/clients/faas.py:37-40 | the export is deleted only after access for its owner was granted, and the listing comes first |
| FaaSClient.OperationStatusCodes | volume_provider/clients/faas.py:68-88 | resize, snapshot delete and restore and access listing succeed only on 200, snapshot creation only on 201 |
| FaaSClient.Classify | volume_provider/clients/faas.py:94-97 | a job is done only on a 200 reply whose status is 'finished' |
| FaaSClient.PollJob | volume_provider/clients/faas.py:92-97 | job polling stays within its attempts, records one call per poll, and every poll before the last was pending |
| FaaSClient.HasId | volume_provider/clients/faas.py:99 | `'id' in result` for a dict; a TypeError for values without membership |
| FaaSClient.WaitForJobFinished | volume_provider/clients/faas.py:90-104 | success needs a finished job whose result is non-empty and has an id, after at most `attempts` polls; zero attempts is the restore failure without any call |
| FaaSClient.JobStopsAtFirstFinished | volume_provider/clients/faas.py:92-97 | polling stops at the first finished reply, after exactly that many polls, with its result |
| FaaSClient.FinishedJobIsReturned | volume_provider/clients/faas.py:92-104 | a job finishing with a non-empty result holding an 'id' is answered with that result, after exactly the polls up to it |
| FaaSClient.UnidentifiedResultFails | volume_provider/clients/faas.py:99-102 | a job finishing with an empty result, or one without an 'id', is APIError 500 carrying that result |
| FaaSClient.JobGivesUp | volume_provider/clients/faas.py:99-102 | a job that stays pending uses every attempt and ends in the restore failure |
| FaaSClient.DefaultWaitGivesUp | volume_provider/clients/faas.py:90-102 | with the default of 50 attempts, a job that stays pending is polled exactly 50 times and ends in the restore failure |
| ProviderFaaS.InvalidFaaSField | volume_provider/providers/faas.py:39-45 | a FaaS volume is rejected exactly when an int field is not an int (`IntFieldOk`) or a string field is missing, not a string or too long (`StrFieldOk`) |
| ProviderFaaS.SaveNew | volume_provider/providers/faas.py:39-45 | the volume is stored under a fresh id exactly when validation passes |
| ProviderFaaS.GroupResourceIsFirstMember | volume_provider/providers/faas.py:47-51 | `GroupResource`, the `set_group` query, is the first stored member's resource, or the fallback for an empty group |
| ProviderFaaS.SetGroup | volume_provider/providers/faas.py:47-51 | the group is recorded and the first member's resource taken; nothing else changes |
| ProviderFaaS.CreateVolume | volume_provider/providers/faas.py:23-36 | at most one export request, carrying the group's resource; on success the export's id, resource and path plus the owner are saved |
| ProviderFaaS.AcceptedExportIsSaved | volume_provider/providers/faas.py:28-34 | an accepted export whose reply holds id, resource and path, with every field valid, is saved once under the fresh id |
| ProviderFaaS.RefusedExportStoresNothing | volume_provider/providers/faas.py:28-34 | a refused export surfaces the service's status and reply and stores nothing |
| ProviderFaaS.SecondVolumeSharesResource | volume_provider/providers/faas.py:26-28 | a new member of an existing group asks for an export on the first member's resource |
| ProviderFaaS.CreatedVolumeLeadsNewGroup | volume_provider/providers/faas.py:26-34 | the first volume of a group becomes the member whose resource later members share |
| ProviderK8s.Namespace | volume_provider/providers/k8s.py:57 | the namespace keyword, 'default' when absent |
| ProviderK8s.CreateVolume | volume_provider/providers/k8s.py:51-68 | the size is converted with `int` before any call; one claim sized in GB is requested; the volume is saved only afterwards, with the claim's name and empty resource, path and owner; creation succeeds exactly when the size converts, the cluster accepts the claim, `volume_name` is a string and the group fits its 50 characters |
| ProviderK8s.CreatedResourceIsAlwaysEmpty | volume_provider/providers/k8s.py:55-63 | the resource a group sibling lends is overwritten by the empty string |
| ProviderK8s.RefusedClaimStoresNothing | volume_provider/providers/k8s.py:56-66 | a refused claim leaves the store unchanged |
| ProviderK8s.ClaimSizeOfDecimalText | volume_provider/providers/k8s.py:54-61 | a whole number of gigabytes given as decimal kilobyte text requests exactly that many gigabytes |
| ProviderK8s.DeleteVolume | volume_provider/providers/k8s.py:70-74 | one deletion of the claim named by the identifier, in the namespace given by the keyword, 'default' otherwise; it succeeds exactly when the cluster accepts it |
| ProviderK8s.SnapshotStatus | volume_provider/providers/k8s.py:48-49 | every snapshot is reported available |
| ProviderK8s.TakeSnapshot | volume_provider/providers/k8s.py:79-82 | the snapshot takes the client's id as text and its name as description; nothing else changes; it succeeds exactly when the reply is a dict whose `snapshot` holds a scalar `id` and a `name` |
| ProviderK8s.WellFormedReplyIsTaken | volume_provider/providers/k8s.py:79-82 | a reply `{"snapshot": {"id": i, "name": n}}` gives the snapshot with identifier `str(i)` and description n |
| ProviderK8s.RemoveSnapshot | volume_provider/providers/k8s.py:84-86 | one deletion call; True exactly when the client accepts it |
| GceWait.CheckOperationStatus | volume_provider/utils/gce/wait.py:24-39 | True exactly when there is no error and the status is DONE; an error fails even a DONE operation |
| GceWait.WaitZoneOperation | volume_provider/utils/gce/wait.py:13-19 | with a readable project, exactly one wait call in that project and the classification of the operation it returns (or its exception); without one, no call at all |
| GceWait.RunningOperationIsNotRetried | volume_provider/utils/gce/wait.py:13-19 | an operation still running after the wait is reported as not done, without a second call |
| GceWait.WaitGlobalOperation | volume_provider/utils/gce/wait.py:21-22 | the global wait does nothing and answers None |
| Team.GetByName | volume_provider/clients/team.py:22-35 | the decoded body of an OK reply, and an empty dict otherwise |
| Team.EnginePrefix | volume_provider/clients/team.py:52 | `split('_')[0]` is the longest prefix without an underscore |
| Team.PrefixBeforeUnderscore | volume_provider/clients/team.py:52 | a name without underscores followed by '_' has that name as its prefix |
| Team.EngineFamilies | volume_provider/clients/team.py:52 | 'mongodb_4_2_3', 'redis_5_0' and 'mysql_5_7' belong to the families mongodb, redis and mysql |
| Team.SharedSubComponent | volume_provider/clients/team.py:9-13 | in `SubComponents`, redis and mysql share a sub-component; mongodb has its own |
| Team.SixTags | volume_provider/clients/team.py:48-55 | the tag map has exactly the six tag keys; team fields the team lacks become None |
| Team.TeamTags | volume_provider/clients/team.py:48-55 | the tags exist exactly when the team is a dict, the engine a string and its family known; otherwise the exception the literal raises first |
| Team.MakeTags | volume_provider/clients/team.py:37-55 | no lookup without a team name and service URL; no tags for an unknown team; non-empty tags are exactly the six for the team and engine family |
| Team.UnknownEngineRaises | volume_provider/clients/team.py:52 | an engine of an unknown family raises KeyError naming its prefix |
| Team.KnownTeamTags | volume_provider/clients/team.py:48-55 | a known team with a known engine family gets the six tags; a missing `cliente` becomes None |
| Team.UnknownTeamHasNoTags | volume_provider/clients/team.py:31-35 | a team the service does not answer OK gives an empty tag map |
| App.VerifyPassword | volume_provider/app.py:26-32 | credentials pass exactly when each setting in force (`InForce`: set and non-empty) matches |
| App.OpenWithoutSettings | volume_provider/app.py:26-32 | with no user or password configured, every request passes |
| App.ResponseInvalidRequest | volume_provider/app.py:56-57 | status 500 with the given body |
| App.ResponseNotFound | volume_provider/app.py:60-62 | status 404 naming the identifier |
| App.ResponseCreated | volume_provider/app.py:65-66 | status 201 with the new volume's address |
| App.ResponseOk | volume_provider/app.py:69-70 | status 200; a falsy message becomes 'ok' |
| App.CreateVolume | volume_provider/app.py:35-53 | data without a truthy (`Truthy`, Python's truthiness) group, size and address (`Complete`, read with `Field`, Python's `data.get(key)`) is a 500 before any provider is resolved; the answer is 201 exactly when the provider resolves and creation succeeds; every exception is a 500 carrying it |
| App.InvalidDataSkipsProviders | volume_provider/app.py:38-44 | the answer to invalid data does not depend on the providers registered or what they do |
| App.ZeroSizeIsInvalid | volume_provider/app.py:40-44 | a zero size is rejected like a missing one |
| App.UnknownProviderIs500 | volume_provider/app.py:46-52 | with the registry as imported, 'ebs' is a 500 naming the missing provider |

## Left out

- Network and process I/O are left out: the Mongo connection, the cloud SDKs and their authentication, HTTP and the Flask app object. Each service is a parameter that maps a call history to a reply.
- Settings (environment variables) are parameters, not globals.
- The compute (GCE) provider class, `migrate.py`, encryption helpers and uuid helpers are left out; only the compute wait helper is modelled. Fresh ids are parameters.
- `sleep` and the delay between polls are left out. Polls are counted, not timed.
- Logging is left out.
- Jinja templates are left out. The Kubernetes claim is described by the values its template receives, not by the rendered YAML.
- Slug and URL building in the team client are left out: they happen inside the service parameter.
- The Kubernetes client is modelled as an abstract interface: the `CoreV1Api` the adapter builds has no snapshot methods, so `create_snapshot` and `delete_snapshot` are replies of the parameter. `_resize` and `_restore_snapshot` are left out: they call client methods that exist nowhere, and the model has no reply to give them.
- ProviderAws.RunPrimitive: the no-op EBS primitives are one member, since they all return None and do nothing.
- Values.PyInt: whitespace, signs and underscores in strings given to `int()` are not modelled; such strings are rejected.
- Values.ScalarStr: lists and dicts are refused instead of rendered by `str()`.
- ProviderFaaS.IntFieldOk: the IntField check accepts ints and bools only, not numeric strings that mongoengine might coerce.
- Exception messages are structured values (`KeyError(key)`, `APIError(status, content)`), not rendered text. Dict key order is not modelled.
- Models.RoundHalfEven: `size_kb / 1024 / 1024` is modelled as an exact rational. Float rounding for sizes of 2^53 KB and above is not modelled.
- ProviderAws.CreateEbsVolume: the EBS driver's `create_volume`, list, attach, detach and destroy calls are assumed not to raise; its success condition holds under that assumption. Only their observable replies are modelled.
- FaaSClient.Connect: the client is rebuilt for each operation instead of being memoised; memoisation itself is modelled by Memo.Force and Providers.Client.
- Credential content reaches the adapters already fetched, as a `Result`.
- The compute SDK's `.execute()` chain and the Kubernetes client calls are abstract replies.
- ProviderAws.Mount: the second wait is evaluated even on paths that do not use it. The calls it would make are not recorded there.
- ProviderK8s.CreateVolume: the group is a string, as the stored Volume types it. A non-string group, which the source passes on, creates the claim and only then refuses at save, is not modelled. A non-string `volume_name` is refused at save with a validation error on `identifier`, after the claim was made, as the source's required string field does.
- ProviderK8s.TakeSnapshot: a non-string snapshot name is recorded as an unset description, where the source stores the raw value (which a later save of the snapshot would refuse).
- Values.Json: JSON numbers with a fraction or an exponent are not modelled; a float size (`1.5`, `0.0`), which `int()` would truncate and truthiness would test, has no value here.
- Models.SnapshotToJson: the `volume` entry is the referenced volume's id, not the Volume document the source returns. `self._id` is taken to be the document's id; whether the document class exposes an `_id` attribute, or raises AttributeError there, is not modelled.
- FaaSClient.ListAccess: this member, together with Resize, CreateSnapshot, DeleteSnapshot and RestoreSnapshot, has its contract stated once, in FaaSClient.OperationStatusCodes.

## Findings

| source | as written | input that shows it | evidently intended | confidence | as-written member | corrected member |
|---|---|---|---|---|---|---|
| volume_provider/credentials/base.py:93-100 | `is_valid` returns `False, error` for bad content and falls off its end for good content, so `credential_add` at providers/base.py:23 unpacks None | a complete EBS credential `{access_id, secret_key, region, ebs_type, device}` | return `True, error` after the membership loop, so valid content is saved | not executed | Providers.ValidContentNeverSavedAsWritten | Providers.CredentialAdd |
| volume_provider/providers/base.py:31-32 | the id is read with `insert.get('_id')` from the document found before the update, which is None on a first save | the first credential for a (provider, environment) pair | return the id of the document just saved | not executed | Providers.FirstSaveIdAsWrittenFails | Providers.CredentialAdd |

=== FILE: app.dfy ===
/** The HTTP edge: basic-auth password check, the volume-creation endpoint's
    input validation and status decisions, and the response helpers. Settings
    are parameters; the provider's own creation is a parameter too. */
module App {
  import opened Values
  import opened Providers

  /** A setting read from the environment is in force when set and non-empty. */
  predicate InForce(setting: Option<string>)
  {
    setting.Some? && |setting.value| > 0
  }

  /** `verify_password`: a configured user name must match, and so must a
      configured password; an unset or empty setting checks nothing. */
  function VerifyPassword(appUsername: Option<string>, appPassword: Option<string>,
                          username: string, password: string): (r: bool)
    ensures r <==> (!InForce(appUsername) || username == appUsername.value)
                   && (!InForce(appPassword) || password == appPassword.value)
  {
    if InForce(appUsername) && username != appUsername.value then false
    else if InForce(appPassword) && password != appPassword.value then false
    else true
  }

  /** With neither setting in force every pair is accepted. */
  lemma OpenWithoutSettings(username: string, password: string)
    ensures VerifyPassword(None, None, username, password)
    ensures VerifyPassword(Some(""), Some(""), username, password)
  {
  }

  /** The JSON body of a response, by the keyword the source passes. */
  datatype Body =
    | InvalidData(data: Json)     // error = 'Invalid data <data>'
    | Failure(error: Exc)         // error = str(exception)
    | CreatedAt(address: string)  // address = the new volume's uuid
    | NotFound(identifier: Json)  // error = 'Could not found with <identifier>'
    | Message(message: Json)      // message = the text, 'ok' by default

  datatype Response = Response(status: int, body: Body)

  /** `response_invalid_request` with its default status. */
  function ResponseInvalidRequest(body: Body): (r: Response)
    ensures r.status == 500 && r.body == body
  {
    Response(500, body)
  }

  /** `response_not_found`. */
  function ResponseNotFound(identifier: Json): (r: Response)
    ensures r.status == 404 && r.body == NotFound(identifier)
  {
    Response(404, NotFound(identifier))
  }

  /** `response_created` with its default status. */
  function ResponseCreated(address: string): (r: Response)
    ensures r.status == 201 && r.body == CreatedAt(address)
  {
    Response(201, CreatedAt(address))
  }

  /** `response_ok`: a falsy message is replaced by 'ok'. */
  function ResponseOk(message: Json): (r: Response)
    ensures r.status == 200
    ensures Truthy(message) ==> r.body == Message(message)
    ensures !Truthy(message) ==> r.body == Message(JStr("ok"))
  {
    Response(200, Message(if Truthy(message) then message else JStr("ok")))
  }

  /** What `provider.create_volume(group, size_kb, to_address)` does for the
      provider resolved from the URL in an environment: the new volume's uuid
      or the exception. */
  type Creator = (ProviderKind, string, Json, Json, Json) -> Result<string>

  /** The three request fields, read with `data.get(key, None)`. */
  function Field(data: map<string, Json>, key: string): Json
  {
    LookupOr(data, key, JNull)
  }

  /** The request carries a truthy group, size and address. */
  predicate Complete(data: map<string, Json>)
  {
    Truthy(Field(data, "group")) && Truthy(Field(data, "size_kb")) && Truthy(Field(data, "to_address"))
  }

  /** `create_volume` (POST /<provider>/<env>/volume/new). An Err is an
      exception the handler does not catch: a body that is not a JSON object
      has no `get`. */
  function CreateVolume(registry: seq<ProviderKind>, create: Creator, providerName: string, env: string,
                        data: Json): (r: Result<Response>)
    ensures !data.JObj? ==> r == Err(AttributeError("get"))
    ensures data.JObj? && !Complete(data.fields) ==> r == Ok(Response(500, InvalidData(data)))
    ensures data.JObj? && Complete(data.fields) ==>
              var g := Field(data.fields, "group");
              var s := Field(data.fields, "size_kb");
              var t := Field(data.fields, "to_address");
              && r.Ok?
              && (r.value.status == 201 <==> GetProviderTo(registry, providerName).Ok?
                                              && create(GetProviderTo(registry, providerName).value, env, g, s, t).Ok?)
              && (GetProviderTo(registry, providerName).Err? ==>
                    r.value == Response(500, Failure(GetProviderTo(registry, providerName).error)))
              && (GetProviderTo(registry, providerName).Ok? ==>
                    var made := create(GetProviderTo(registry, providerName).value, env, g, s, t);
                    && (made.Ok? ==> r.value == Response(201, CreatedAt(made.value)))
                    && (made.Err? ==> r.value == Response(500, Failure(made.error))))
  {
    if !data.JObj? then Err(AttributeError("get"))
    else if !Complete(data.fields) then Ok(ResponseInvalidRequest(InvalidData(data)))
    else
      var g := Field(data.fields, "group");
      var s := Field(data.fields, "size_kb");
      var t := Field(data.fields, "to_address");
      match GetProviderTo(registry, providerName)
      case Err(e) => Ok(ResponseInvalidRequest(Failure(e)))
      case Ok(kind) =>
        match create(kind, env, g, s, t)
        case Err(e) => Ok(ResponseInvalidRequest(Failure(e)))
        case Ok(uuid) => Ok(ResponseCreated(uuid))
  }

  /** Invalid input is answered before any provider is looked up: the answer
      is the same whatever providers are registered and whatever they do. */
  lemma InvalidDataSkipsProviders(registry: seq<ProviderKind>, create: Creator,
                                  registry': seq<ProviderKind>, create': Creator,
                                  providerName: string, env: string, data: map<string, Json>)
    requires !Complete(data)
    ensures CreateVolume(registry, create, providerName, env, JObj(data))
              == CreateVolume(registry', create', providerName, env, JObj(data))
              == Ok(Response(500, InvalidData(JObj(data))))
  {
  }

  /** A zero size is as invalid as a missing one. */
  lemma ZeroSizeIsInvalid(registry: seq<ProviderKind>, create: Creator, providerName: string, env: string,
                          data: map<string, Json>)
    requires "size_kb" in data && data["size_kb"] == JInt(0)
    ensures CreateVolume(registry, create, providerName, env, JObj(data)).value.status == 500
  {
  }

  /** An unregistered provider name is a 500 naming it. */
  lemma UnknownProviderIs500(create: Creator, env: string, data: map<string, Json>)
    requires Complete(data)
    ensures CreateVolume(Registered, create, "ebs", env, JObj(data))
              == Ok(Response(500, Failure(NotImplementedError("No provider to 'ebs'"))))
  {
    RegisteredLookups();
  }
}

=== FILE: aws.dfy ===
/** The block-storage adapter ('ebs'): node and volume lookup, bounded polling
    of the volume state, the attach/detach state machine, volume creation, and
    the mount command handed to the host. */
module ProviderAws {
  import opened Values
  import opened Models
  import CredentialsAws

  const STATE_AVAILABLE: string := "available"
  const STATE_INUSE: string := "inuse"

  /** Number of polls before waiting for a state gives up. */
  const ATTEMPTS: nat := 60

  /** A compute node: its id, name, private addresses and `extra['subnet_id']`. */
  datatype Node = Node(id: string, name: string, privateIps: seq<string>, subnetId: Option<string>)

  /** A block volume as listed by the driver; `instanceId` is `extra['instance_id']`. */
  datatype Ebs = Ebs(id: string, name: string, state: string, instanceId: Option<string>)

  /** A subnet; `zone` is `extra.get('zone')`. */
  datatype Subnet = Subnet(zone: Option<string>)

  datatype Location = Location(name: string)

  /** The account as the adapter sees it during one operation. `listing(k)` is
      the reply to the k-th `list_volumes` call of the operation (the volume's
      state may change between polls), `subnets(id)` the reply to
      `ex_list_subnets([id])`, and `created` the volume `create_volume` returns. */
  datatype Cloud = Cloud(
    nodes: seq<Node>,
    listing: nat -> seq<Ebs>,
    subnets: Option<string> -> seq<Subnet>,
    locations: seq<Location>,
    created: Ebs)

  /** The driver calls an operation issues, in order. */
  datatype AwsCall =
    | ListNodes
    | ListVolumes(identifier: Option<string>)
    | Attach(node: Option<Node>, ebs: Ebs, device: string)
    | Detach(ebs: Ebs, force: Json)
    | Destroy(ebs: Ebs)
    | ListSubnets(subnetId: Option<string>)
    | ListLocations
    | CreateEbs(sizeGb: int, name: string, volumeType: Json, iops: Json, location: Option<Location>)

  /** `credential.device`, which reads no stored content. */
  const Device: string := CredentialsAws.Device(map[])

  predicate Hosts(n: Node, owner: Option<string>)
  {
    owner.Some? && owner.value in n.privateIps
  }

  /** `__get_node`: the first node whose private addresses include the owner. */
  function GetNode(nodes: seq<Node>, owner: Option<string>): (r: Option<Node>)
    ensures r.Some? ==> exists k :: 0 <= k < |nodes| && nodes[k] == r.value && Hosts(r.value, owner)
                          && forall j :: 0 <= j < k ==> !Hosts(nodes[j], owner)
    ensures r.None? <==> forall k :: 0 <= k < |nodes| ==> !Hosts(nodes[k], owner)
  {
    match FirstIndex(nodes, (n: Node) => Hosts(n, owner))
    case None => None
    case Some(k) => Some(nodes[k])
  }

  /** `__get_ebs`: the listed volume when exactly one is listed and it carries the
      volume's identifier. */
  function GetEbs(reply: seq<Ebs>, identifier: Option<string>): (r: Option<Ebs>)
    ensures r.Some? <==> |reply| == 1 && identifier == Some(reply[0].id)
    ensures r.Some? ==> r.value == reply[0]
  {
    if |reply| != 1 then None
    else if identifier != Some(reply[0].id) then None
    else Some(reply[0])
  }

  /** The volume as the k-th `list_volumes` call of an operation shows it. */
  function Seen(cloud: Cloud, v: Volume, k: nat): Option<Ebs>
  {
    GetEbs(cloud.listing(k), v.identifier)
  }

  /** The k-th poll found the volume, in a state other than `target`. */
  predicate Missed(cloud: Cloud, v: Volume, k: nat, target: string)
  {
    Seen(cloud, v, k).Some? && Seen(cloud, v, k).value.state != target
  }

  predicate Hit(cloud: Cloud, v: Volume, k: nat, target: string)
  {
    Seen(cloud, v, k).Some? && Seen(cloud, v, k).value.state == target
  }

  /** `str(volume.id)`. */
  function IdText(id: Option<string>): string
  {
    match id
    case None => "None"
    case Some(s) => s
  }

  function WaitMessage(v: Volume, state: string, target: string): string
  {
    "Volume " + IdText(v.id) + " is " + state + " should be " + target
  }

  /** The outcome of a wait and the number of polls it made. */
  datatype Waited = Waited(outcome: Result<bool>, polls: nat)

  /** The polling loop of `__waiting_be` from poll `first` with `left` attempts
      to go: it stops at the first poll in the target state; a poll that does
      not find the volume raises at `ebs.state`; after the last attempt it raises
      with the last state seen. */
  function PollFrom(target: string, v: Volume, cloud: Cloud, first: nat, left: nat): (r: Waited)
    requires left >= 1
    ensures 1 <= r.polls <= left
    ensures forall k :: first <= k < first + r.polls - 1 ==> Missed(cloud, v, k, target)
    ensures var last := Seen(cloud, v, first + r.polls - 1);
            && (last.None? ==> r.outcome == Err(AttributeError("state")))
            && (last.Some? && last.value.state == target ==> r.outcome == Ok(true))
            && (last.Some? && last.value.state != target ==>
                  r.polls == left && r.outcome == Err(EnvironmentError(WaitMessage(v, last.value.state, target))))
    decreases left
  {
    match Seen(cloud, v, first)
    case None => Waited(Err(AttributeError("state")), 1)
    case Some(ebs) =>
      if ebs.state == target then Waited(Ok(true), 1)
      else if left == 1 then Waited(Err(EnvironmentError(WaitMessage(v, ebs.state, target))), 1)
      else
        var rest := PollFrom(target, v, cloud, first + 1, left - 1);
        Waited(rest.outcome, rest.polls + 1)
  }

  /** A wait that succeeded saw the target state at its last poll. */
  predicate Landed(cloud: Cloud, v: Volume, w: Waited, first: nat, target: string)
  {
    w.outcome.Ok? ==> w.outcome.value && w.polls >= 1 && Hit(cloud, v, first + w.polls - 1, target)
  }

  /** `__waiting_be`: at most ATTEMPTS polls, starting at poll `first`. */
  function WaitBe(target: string, v: Volume, cloud: Cloud, first: nat): (r: Waited)
    ensures 1 <= r.polls <= ATTEMPTS
    ensures Landed(cloud, v, r, first, target)
  {
    var r := PollFrom(target, v, cloud, first, ATTEMPTS);
    assert r.outcome.Ok? ==> Hit(cloud, v, first + r.polls - 1, target) by {
      var last := Seen(cloud, v, first + r.polls - 1);
      if r.outcome.Ok? && last.Some? {
        assert last.value.state == target;
      }
    }
    r
  }

  /** When the volume first shows the target state at poll `first + n`, the
      loop returns True after exactly n + 1 polls. */
  lemma {:induction false} PollStopsAtFirstHit(target: string, v: Volume, cloud: Cloud, first: nat, left: nat, n: nat)
    requires n < left
    requires forall k :: first <= k < first + n ==> Missed(cloud, v, k, target)
    requires Hit(cloud, v, first + n, target)
    ensures PollFrom(target, v, cloud, first, left) == Waited(Ok(true), n + 1)
    decreases n
  {
    if n > 0 {
      assert Missed(cloud, v, first, target) && left >= 2;
      assert first + 1 + (n - 1) == first + n;
      PollStopsAtFirstHit(target, v, cloud, first + 1, left - 1, n - 1);
    }
  }

  /** When every poll finds the volume in another state, the loop raises after
      its last attempt with the state that poll saw. */
  lemma {:induction false} PollGivesUp(target: string, v: Volume, cloud: Cloud, first: nat, left: nat)
    requires left >= 1
    requires forall k :: first <= k < first + left ==> Missed(cloud, v, k, target)
    ensures var last := Seen(cloud, v, first + left - 1);
            && last.Some?
            && PollFrom(target, v, cloud, first, left)
                 == Waited(Err(EnvironmentError(WaitMessage(v, last.value.state, target))), left)
    decreases left
  {
    assert Missed(cloud, v, first, target);
    if left > 1 {
      PollGivesUp(target, v, cloud, first + 1, left - 1);
    }
  }

  /** `__waiting_be` returns True at the first poll that shows the target state. */
  lemma WaitStopsAtFirstHit(target: string, v: Volume, cloud: Cloud, first: nat, n: nat)
    requires n < ATTEMPTS
    requires forall k :: first <= k < first + n ==> Missed(cloud, v, k, target)
    requires Hit(cloud, v, first + n, target)
    ensures WaitBe(target, v, cloud, first) == Waited(Ok(true), n + 1)
  {
    PollStopsAtFirstHit(target, v, cloud, first, ATTEMPTS, n);
  }

  /** When all ATTEMPTS polls find the volume in another state, `__waiting_be`
      raises with the state of the last poll. */
  lemma WaitGivesUp(target: string, v: Volume, cloud: Cloud, first: nat)
    requires forall k :: first <= k < first + ATTEMPTS ==> Missed(cloud, v, k, target)
    ensures var last := Seen(cloud, v, first + ATTEMPTS - 1);
            && last.Some?
            && WaitBe(target, v, cloud, first)
                 == Waited(Err(EnvironmentError(WaitMessage(v, last.value.state, target))), ATTEMPTS)
  {
    PollGivesUp(target, v, cloud, first, ATTEMPTS);
  }

  /** The `list_volumes` calls of n polls. */
  function Polls(v: Volume, n: nat): (r: seq<AwsCall>)
    ensures |r| == n
    ensures forall k :: 0 <= k < n ==> r[k] == ListVolumes(v.identifier)
  {
    if n == 0 then [] else Polls(v, n - 1) + [ListVolumes(v.identifier)]
  }

  predicate Attaches(calls: seq<AwsCall>)
  {
    exists i :: 0 <= i < |calls| && calls[i].Attach?
  }

  predicate Destroys(calls: seq<AwsCall>)
  {
    exists i :: 0 <= i < |calls| && calls[i].Destroy?
  }

  predicate Detaches(calls: seq<AwsCall>)
  {
    exists i :: 0 <= i < |calls| && calls[i].Detach?
  }

  /** `ebs.extra['instance_id'] == node.id`: whether an in-use volume is attached
      to the owner's node. */
  function AttachedTo(ebs: Ebs, node: Option<Node>): (r: Result<bool>)
    ensures r.Ok? <==> ebs.instanceId.Some? && node.Some?
    ensures r.Ok? ==> (r.value <==> ebs.instanceId.value == node.value.id)
  {
    match ebs.instanceId
    case None => Err(KeyError("instance_id"))
    case Some(instance) =>
      match node
      case None => Err(AttributeError("id"))
      case Some(n) => Ok(instance == n.id)
  }

  /** The calls every operation starts with: list the nodes, then the volume. */
  function Looked(v: Volume): seq<AwsCall>
  {
    [ListNodes, ListVolumes(v.identifier)]
  }

  /** The attach phase put together from its two waits: when the first wait
      raises, the attach and the second wait never happen. */
  function Sequenced(v: Volume, attach: AwsCall, w1: Waited, w2: Waited): (r: (Result<()>, seq<AwsCall>))
  {
    if w1.outcome.Err? then (Err(w1.outcome.error), Polls(v, w1.polls))
    else (if w2.outcome.Ok? then Ok(()) else Err(w2.outcome.error),
          Polls(v, w1.polls) + [attach] + Polls(v, w2.polls))
  }

  /** `mount` of a volume that is not in use: wait for 'available', attach at
      the credential's device, wait for 'inuse'. The polls start at the second
      listing of the operation, and the second wait picks up after the first. */
  function AttachAndWait(v: Volume, cloud: Cloud, node: Option<Node>, ebs: Ebs): (r: (Result<()>, seq<AwsCall>))
  {
    var w1 := WaitBe(STATE_AVAILABLE, v, cloud, 1);
    Sequenced(v, Attach(node, ebs, Device), w1, WaitBe(STATE_INUSE, v, cloud, 1 + w1.polls))
  }

  /** `mount`: a volume already in use by the owner's node is left alone; one in
      use elsewhere is refused; otherwise it is attached between two waits. */
  function Mount(v: Volume, cloud: Cloud): (r: (Result<()>, seq<AwsCall>))
    ensures Seen(cloud, v, 0).None? ==> r == (Err(AttributeError("state")), Looked(v))
    ensures Seen(cloud, v, 0).Some? && Seen(cloud, v, 0).value.state == STATE_INUSE ==>
              var ebs := Seen(cloud, v, 0).value;
              var node := GetNode(cloud.nodes, v.ownerAddress);
              && r.1 == Looked(v) && !Attaches(r.1)
              && (AttachedTo(ebs, node) == Ok(true) ==> r.0 == Ok(()))
              && (AttachedTo(ebs, node) == Ok(false) ==>
                    r.0 == Err(EnvironmentError("Volume " + ebs.id + " being used in " + node.value.id)))
    ensures Seen(cloud, v, 0).Some? && Seen(cloud, v, 0).value.state != STATE_INUSE ==>
              var rest := AttachAndWait(v, cloud, GetNode(cloud.nodes, v.ownerAddress), Seen(cloud, v, 0).value);
              r == (rest.0, Looked(v) + rest.1)
  {
    var node := GetNode(cloud.nodes, v.ownerAddress);
    match Seen(cloud, v, 0)
    case None => (Err(AttributeError("state")), Looked(v))
    case Some(ebs) =>
      if ebs.state == STATE_INUSE then
        match AttachedTo(ebs, node)
        case Err(e) => (Err(e), Looked(v))
        case Ok(here) =>
          if here then (Ok(()), Looked(v))
          else (Err(EnvironmentError("Volume " + ebs.id + " being used in " + node.value.id)), Looked(v))
      else
        var rest := AttachAndWait(v, cloud, node, ebs);
        (rest.0, Looked(v) + rest.1)
  }

  /** A successful mount of a volume that was not in use lists the node and the
      volume, then attaches exactly once, at the fixed device, right after a
      poll that saw the volume 'available', and its last poll saw it 'inuse'. */
  lemma MountAttachesBetweenWaits(v: Volume, cloud: Cloud)
    requires Seen(cloud, v, 0).Some? && Seen(cloud, v, 0).value.state != STATE_INUSE
    requires Mount(v, cloud).0.Ok?
    ensures |Mount(v, cloud).1| >= 2 && Mount(v, cloud).1[..2] == Looked(v)
    ensures exists i :: AttachedBetweenWaits(v, cloud, Mount(v, cloud).1[2..], i)
  {
    var rest := AttachAndWait(v, cloud, GetNode(cloud.nodes, v.ownerAddress), Seen(cloud, v, 0).value);
    assert Mount(v, cloud).1[2..] == rest.1;
    AttachBetweenWaits(v, cloud, GetNode(cloud.nodes, v.ownerAddress), Seen(cloud, v, 0).value);
  }

  /** The attach phase, when it succeeds, attaches once between its two waits. */
  lemma AttachBetweenWaits(v: Volume, cloud: Cloud, node: Option<Node>, ebs: Ebs)
    requires AttachAndWait(v, cloud, node, ebs).0.Ok?
    ensures exists i :: AttachedBetweenWaits(v, cloud, AttachAndWait(v, cloud, node, ebs).1, i)
  {
    var w1 := WaitBe(STATE_AVAILABLE, v, cloud, 1);
    var w2 := WaitBe(STATE_INUSE, v, cloud, 1 + w1.polls);
    assert Device == "/dev/sdf";
    SequencedAttach(v, cloud, Attach(node, ebs, Device), w1, w2);
  }

  /** Two successful waits around an attach at the fixed device. */
  lemma SequencedAttach(v: Volume, cloud: Cloud, a: AwsCall, w1: Waited, w2: Waited)
    requires Sequenced(v, a, w1, w2).0.Ok?
    requires a.Attach? && a.device == "/dev/sdf"
    requires Landed(cloud, v, w1, 1, STATE_AVAILABLE) && Landed(cloud, v, w2, 1 + w1.polls, STATE_INUSE)
    ensures AttachedBetweenWaits(v, cloud, Sequenced(v, a, w1, w2).1, w1.polls)
  {
    AttachedBetweenPolls(v, cloud, w1.polls, a, w2.polls);
  }

  /** Position n1 of `Polls(n1) + [a] + Polls(n2)` is its only attach. */
  lemma AttachedBetweenPolls(v: Volume, cloud: Cloud, n1: nat, a: AwsCall, n2: nat)
    requires n1 >= 1 && n2 >= 1
    requires a.Attach? && a.device == "/dev/sdf"
    requires Hit(cloud, v, 1 + n1 - 1, STATE_AVAILABLE) && Hit(cloud, v, 1 + n1 + n2 - 1, STATE_INUSE)
    ensures AttachedBetweenWaits(v, cloud, Polls(v, n1) + [a] + Polls(v, n2), n1)
  {
    assert 1 + n1 + n2 - 1 == n1 + n2 && 1 + n1 - 1 == n1;
    var calls := Polls(v, n1) + [a] + Polls(v, n2);
    forall j | 0 <= j < |calls| && j != n1
      ensures !calls[j].Attach?
    {
      if j < n1 {
        assert calls[j] == Polls(v, n1)[j];
      } else {
        assert calls[j] == Polls(v, n2)[j - 1 - n1];
      }
    }
    assert calls[n1] == a;
  }

  /** In the calls after the two lookups, position i is the only attach, at the
      fixed device; the poll just before it saw the volume 'available' and the
      last poll saw it 'inuse' (the k-th poll is listing k, and the attach
      shifts the later polls by one position). */
  predicate AttachedBetweenWaits(v: Volume, cloud: Cloud, calls: seq<AwsCall>, i: int)
  {
    && 0 < i < |calls| - 1
    && calls[i].Attach? && calls[i].device == "/dev/sdf"
    && Hit(cloud, v, i, STATE_AVAILABLE)
    && Hit(cloud, v, |calls| - 1, STATE_INUSE)
    && forall j :: 0 <= j < |calls| && j != i ==> !calls[j].Attach?
  }

  /** Whatever the polls show, a volume in use by another node is never
      attached, and one in use by the owner's node needs no call at all. */
  lemma MountInUseNeverAttaches(v: Volume, cloud: Cloud)
    requires Seen(cloud, v, 0).Some? && Seen(cloud, v, 0).value.state == STATE_INUSE
    ensures !Attaches(Mount(v, cloud).1)
    ensures Mount(v, cloud).0.Ok? <==>
              AttachedTo(Seen(cloud, v, 0).value, GetNode(cloud.nodes, v.ownerAddress)) == Ok(true)
  {
  }

  /** The EnvironmentError text for a volume attached to another node. */
  function NotAttached(ebsId: string, nodeId: string): string
  {
    "Volume " + ebsId + " not attached in instance " + nodeId
  }

  /** `_delete_volume`: a volume in use elsewhere is refused; one in use by the
      owner's node is detached (with the credential's `force_detach`) and waited
      for until 'available'; then the volume is destroyed. `cred` is the stored
      credential content, or the error reading it raises. */
  function DeleteEbs(v: Volume, cloud: Cloud, cred: Result<map<string, Json>>): (r: (Result<()>, seq<AwsCall>))
    ensures r.0.Ok? <==> Destroys(r.1)
    ensures r.0.Ok? ==> Seen(cloud, v, 0).Some? && r.1[|r.1| - 1] == Destroy(Seen(cloud, v, 0).value)
    ensures Seen(cloud, v, 0).Some? && Seen(cloud, v, 0).value.state != STATE_INUSE ==>
              r == (Ok(()), Looked(v) + [Destroy(Seen(cloud, v, 0).value)])
    ensures Seen(cloud, v, 0).Some? && Seen(cloud, v, 0).value.state == STATE_INUSE ==>
              var rest := DeleteInUse(v, cloud, Seen(cloud, v, 0).value, GetNode(cloud.nodes, v.ownerAddress), cred);
              r.0 == rest.0 && r.1 == Looked(v) + rest.1
  {
    match Seen(cloud, v, 0)
    case None => (Err(AttributeError("state")), Looked(v))
    case Some(ebs) =>
      if ebs.state != STATE_INUSE then
        assert (Looked(v) + [Destroy(ebs)])[2].Destroy?;
        (Ok(()), Looked(v) + [Destroy(ebs)])
      else
        var rest := DeleteInUse(v, cloud, ebs, GetNode(cloud.nodes, v.ownerAddress), cred);
        LookedThen(v, rest.1);
        assert Looked(v) + [] == Looked(v);
        (rest.0, Looked(v) + rest.1)
  }

  /** Deleting a volume in use by a node other than the owner's is refused
      right after the two lookups. */
  lemma DeleteRefusedElsewhere(v: Volume, cloud: Cloud, cred: Result<map<string, Json>>)
    requires Seen(cloud, v, 0).Some? && Seen(cloud, v, 0).value.state == STATE_INUSE
    requires AttachedTo(Seen(cloud, v, 0).value, GetNode(cloud.nodes, v.ownerAddress)) == Ok(false)
    ensures DeleteEbs(v, cloud, cred)
              == (Err(EnvironmentError(NotAttached(Seen(cloud, v, 0).value.id,
                                                   GetNode(cloud.nodes, v.ownerAddress).value.id))), Looked(v))
  {
    assert Looked(v) + [] == Looked(v);
  }

  /** Deleting a volume in use by the owner's node detaches it right after the
      lookups, with the credential's `force_detach`, and destroys it only after
      the last poll saw it 'available'. */
  lemma DeleteDetachesFirst(v: Volume, cloud: Cloud, content: map<string, Json>)
    requires Seen(cloud, v, 0).Some? && Seen(cloud, v, 0).value.state == STATE_INUSE
    requires AttachedTo(Seen(cloud, v, 0).value, GetNode(cloud.nodes, v.ownerAddress)) == Ok(true)
    ensures var r := DeleteEbs(v, cloud, Ok(content));
            && |r.1| > 2 && r.1[2] == Detach(Seen(cloud, v, 0).value, CredentialsAws.ForceDetach(content))
            && (r.0.Ok? ==> Hit(cloud, v, |r.1| - 4, STATE_AVAILABLE))
  {
    var rest := DeleteInUse(v, cloud, Seen(cloud, v, 0).value, GetNode(cloud.nodes, v.ownerAddress), Ok(content));
    assert (Looked(v) + rest.1)[2] == rest.1[0];
  }

  /** The calls after the two lookups destroy exactly when the whole sequence does. */
  lemma LookedThen(v: Volume, rest: seq<AwsCall>)
    ensures Destroys(Looked(v) + rest) <==> Destroys(rest)
  {
    if Destroys(rest) {
      var i :| 0 <= i < |rest| && rest[i].Destroy?;
      assert (Looked(v) + rest)[i + 2] == rest[i];
    }
    if Destroys(Looked(v) + rest) {
      var i :| 0 <= i < |Looked(v) + rest| && (Looked(v) + rest)[i].Destroy?;
      assert i >= 2 && (Looked(v) + rest)[i] == rest[i - 2];
    }
  }

  /** The delete of a volume in use, after the two lookups: only one attached
      to the owner's node is detached, waited for and destroyed. */
  function DeleteInUse(v: Volume, cloud: Cloud, ebs: Ebs, node: Option<Node>, cred: Result<map<string, Json>>)
    : (r: (Result<()>, seq<AwsCall>))
    ensures r.0.Ok? <==> Destroys(r.1)
    ensures r.0.Ok? ==> |r.1| >= 3 && r.1[|r.1| - 1] == Destroy(ebs) && Hit(cloud, v, |r.1| - 2, STATE_AVAILABLE)
    ensures AttachedTo(ebs, node) == Ok(false) ==>
              r == (Err(EnvironmentError(NotAttached(ebs.id, node.value.id))), [])
    ensures AttachedTo(ebs, node) == Ok(true) && cred.Ok? ==>
              |r.1| >= 1 && r.1[0] == Detach(ebs, CredentialsAws.ForceDetach(cred.value))
  {
    match AttachedTo(ebs, node)
    case Err(e) => (Err(e), [])
    case Ok(here) =>
      if !here then (Err(EnvironmentError(NotAttached(ebs.id, node.value.id))), [])
      else
        match cred
        case Err(e) => (Err(e), [])
        case Ok(content) => DetachThenDestroy(v, cloud, ebs, CredentialsAws.ForceDetach(content))
  }

  /** Detach from the owner's node, wait for 'available', then destroy. */
  function DetachThenDestroy(v: Volume, cloud: Cloud, ebs: Ebs, forceDetach: Json): (r: (Result<()>, seq<AwsCall>))
    ensures r.0.Ok? <==> Destroys(r.1)
    ensures |r.1| >= 1 && r.1[0] == Detach(ebs, forceDetach)
    ensures r.0.Ok? ==> |r.1| >= 3 && r.1[|r.1| - 1] == Destroy(ebs) && Hit(cloud, v, |r.1| - 2, STATE_AVAILABLE)
  {
    var w := WaitBe(STATE_AVAILABLE, v, cloud, 1);
    var waited := [Detach(ebs, forceDetach)] + Polls(v, w.polls);
    assert !Destroys(waited) by {
      forall i | 0 <= i < |waited| ensures !waited[i].Destroy? {
        if i >= 1 { assert waited[i] == Polls(v, w.polls)[i - 1]; }
      }
    }
    if w.outcome.Err? then (Err(w.outcome.error), waited)
    else
      assert (waited + [Destroy(ebs)])[|waited|].Destroy?;
      (Ok(()), waited + [Destroy(ebs)])
  }

  /** A volume in use by another node is neither detached nor destroyed. */
  lemma DeleteInUseElsewhereKeepsVolume(v: Volume, cloud: Cloud, cred: Result<map<string, Json>>)
    requires Seen(cloud, v, 0).Some? && Seen(cloud, v, 0).value.state == STATE_INUSE
    requires AttachedTo(Seen(cloud, v, 0).value, GetNode(cloud.nodes, v.ownerAddress)) == Ok(false)
    ensures DeleteEbs(v, cloud, cred).0.Err?
    ensures !Destroys(DeleteEbs(v, cloud, cred).1) && !Detaches(DeleteEbs(v, cloud, cred).1)
  {
  }

  /** The first location named after the zone. */
  function FindLocation(locations: seq<Location>, zone: Option<string>): (r: Option<Location>)
    ensures r.Some? ==> r.value in locations && zone == Some(r.value.name)
    ensures r.None? ==> forall k :: 0 <= k < |locations| ==> zone != Some(locations[k].name)
  {
    match FirstIndex(locations, (l: Location) => zone == Some(l.name))
    case None => None
    case Some(k) => Some(locations[k])
  }

  /** `_create_volume`: create a volume sized in whole gigabytes, named after the
      owner's node, of the credential's type and iops, in the zone of the node's
      subnet; then record its id, name and the device. Arguments are evaluated
      in the source's order, so the first failing one decides the error. */
  function CreateEbsVolume(v: Volume, cloud: Cloud, cred: Result<map<string, Json>>): (r: (Result<Volume>, seq<AwsCall>))
    ensures r.0.Ok? ==>
              && v.sizeKb.Some? && GetNode(cloud.nodes, v.ownerAddress).Some? && cred.Ok?
              && "ebs_type" in cred.value
              && r.0.value == v.(identifier := Some(cloud.created.id), resourceId := Some(cloud.created.name), path := Some("/dev/sdf"))
              && var node := GetNode(cloud.nodes, v.ownerAddress).value;
                 var subnets := cloud.subnets(node.subnetId);
                 && |subnets| > 0
                 && r.1 == [ListNodes, ListSubnets(node.subnetId), ListLocations,
                            CreateEbs(ConvertKbToGb(v.sizeKb.value), node.name, cred.value["ebs_type"],
                                      CredentialsAws.Iops(cred.value), FindLocation(cloud.locations, subnets[0].zone))]
    ensures v.sizeKb.None? ==> r == (Err(TypeError(FLOAT_NONE_MESSAGE)), [ListNodes])
    ensures v.sizeKb.Some? && GetNode(cloud.nodes, v.ownerAddress).None? ==> r == (Err(AttributeError("name")), [ListNodes])
    ensures r.0.Ok? <==> v.sizeKb.Some? && GetNode(cloud.nodes, v.ownerAddress).Some? && cred.Ok?
                         && "ebs_type" in cred.value
                         && |cloud.subnets(GetNode(cloud.nodes, v.ownerAddress).value.subnetId)| > 0
  {
    var node := GetNode(cloud.nodes, v.ownerAddress);
    match SizeGb(v)
    case Err(e) => (Err(e), [ListNodes])
    case Ok(sizeGb) =>
      match node
      case None => (Err(AttributeError("name")), [ListNodes])
      case Some(n) =>
        match cred
        case Err(e) => (Err(e), [ListNodes])
        case Ok(content) =>
          match Lookup(content, "ebs_type")
          case Err(e) => (Err(e), [ListNodes])
          case Ok(ebsType) =>
            var subnets := cloud.subnets(n.subnetId);
            if |subnets| == 0 then (Err(IndexError("list index out of range")), [ListNodes, ListSubnets(n.subnetId)])
            else
              var location := FindLocation(cloud.locations, subnets[0].zone);
              var calls := [ListNodes, ListSubnets(n.subnetId), ListLocations,
                            CreateEbs(sizeGb, n.name, ebsType, CredentialsAws.Iops(content), location)];
              var created := cloud.created;
              (Ok(v.(identifier := Some(created.id), resourceId := Some(created.name), path := Some(Device))), calls)
  }

  /** The primitives the adapter leaves empty: granting and revoking access,
      resizing, and the three snapshot operations. */
  datatype Primitive =
    | AddAccess(toAddress: string)
    | RemoveAccess(toAddress: string)
    | Resize(newSizeKb: int)
    | TakeSnapshot(snapshot: Snapshot)
    | RemoveSnapshot(snapshot: Snapshot)
    | RestoreSnapshot(snapshot: Snapshot)

  /** Running a primitive returns None, issues no driver call and leaves the
      volume as it was. */
  function RunPrimitive(p: Primitive, v: Volume): (r: (Option<Json>, Volume, seq<AwsCall>))
    ensures r.0.None? && r.1 == v && |r.2| == 0
  {
    (None, v, [])
  }

  /** `split('/')[-1]`: the part of `s` after its last '/', or all of `s`. */
  function LastSegment(s: string): (r: string)
    ensures |r| <= |s| && r == s[|s| - |r|..]
    ensures '/' !in r
    ensures |r| < |s| ==> s[|s| - |r| - 1] == '/'
  {
    if |s| == 0 then ""
    else if s[|s| - 1] == '/' then ""
    else LastSegment(s[..|s| - 1]) + [s[|s| - 1]]
  }

  /** `[-2:]`: the last two characters, or the whole string when shorter. */
  function LastTwo(s: string): (r: string)
    ensures |r| == if |s| < 2 then |s| else 2
    ensures r == s[|s| - |r|..]
  {
    if |s| <= 2 then s else s[|s| - 2..]
  }

  /** The device name the host sees: '/dev/xv' and the last two characters of
      the credential device's name. */
  function XvDevice(device: string): string
  {
    "/dev/xv" + LastTwo(LastSegment(device))
  }

  function MountCommand(device: string): string
  {
    "yum -y install xfsprogs && mkfs -t xfs " + device + " && mkdir -p /data && mount " + device + " /data"
  }

  /** The fixed device '/dev/sdf' appears on the host as '/dev/xvdf'. */
  lemma DeviceOnHost()
    ensures LastSegment(Device) == "sdf"
    ensures XvDevice(Device) == "/dev/xvdf"
  {
    var s := Device;
    assert s[..|s| - 1] == "/dev/sd";
    assert s[..|s| - 1][..|s| - 2] == "/dev/s";
    assert s[..|s| - 1][..|s| - 2][..|s| - 3] == "/dev/";
    assert LastSegment("/dev/") == "";
  }

  /** `CommandsAWS._mount`: mount first, then the shell command that formats
      and mounts the host device under /data. */
  function CommandsMount(v: Volume, cloud: Cloud): (r: (Result<string>, seq<AwsCall>))
    ensures r.1 == Mount(v, cloud).1
    ensures r.0.Ok? <==> Mount(v, cloud).0.Ok?
    ensures r.0.Ok? ==> r.0.value == MountCommand("/dev/xvdf")
  {
    var mounted := Mount(v, cloud);
    match mounted.0
    case Err(e) => (Err(e), mounted.1)
    case Ok(_) =>
      DeviceOnHost();
      (Ok(MountCommand(XvDevice(Device))), mounted.1)
  }

  /** `CommandsAWS._clean_up`: there is nothing to clean up. */
  function CleanUp(v: Volume): (r: Option<string>)
    ensures r.None?
  {
    None
  }
}

=== FILE: credentials.dfy ===
/** The credential collection and the two credential classes built on it:
    `CredentialBase` (read side: one document per provider and environment,
    fetched once and cached) and `CredentialAdd` (write side: validation of
    submitted content, upsert and delete). */
module Credentials {
  import opened Values
  import Memo

  /** A stored credential document: Mongo's `_id` and the document's fields. */
  datatype Doc = Doc(id: string, fields: map<string, Json>)

  /** The `credential` collection, in natural order. */
  type Collection = seq<Doc>

  /** The query `{"provider": provider, "environment": environment}`. */
  function KeyOf(provider: string, environment: string): map<string, Json>
  {
    map["provider" := JStr(provider), "environment" := JStr(environment)]
  }

  /** A document matches an equality filter when it holds every filter field with that value. */
  predicate Matches(d: Doc, filter: map<string, Json>)
  {
    forall k :: k in filter ==> k in d.fields && d.fields[k] == filter[k]
  }

  /** `find_one(filter)`: the first matching document in natural order. */
  function FindOne(coll: Collection, filter: map<string, Json>): (r: Option<Doc>)
    ensures r.Some? ==> r.value in coll && Matches(r.value, filter)
    ensures r.None? <==> forall k :: 0 <= k < |coll| ==> !Matches(coll[k], filter)
  {
    match FirstIndex(coll, (d: Doc) => Matches(d, filter))
    case None => None
    case Some(k) => Some(coll[k])
  }

  /** `get_content`: the stored document for (provider, environment), or
      NotImplementedError "No <provider> credential for <environment>". */
  function GetContent(coll: Collection, provider: string, environment: string): (r: Result<Doc>)
    ensures r.Ok? <==> exists k :: 0 <= k < |coll| && Matches(coll[k], KeyOf(provider, environment))
    ensures r.Ok? ==> r.value in coll && Matches(r.value, KeyOf(provider, environment))
    ensures r.Err? ==> r.error == NotImplementedError("No " + provider + " credential for " + environment)
  {
    match FindOne(coll, KeyOf(provider, environment))
    case Some(d) => Ok(d)
    case None => Err(NotImplementedError("No " + provider + " credential for " + environment))
  }

  /** A `CredentialBase` object: its key and its content cache. */
  datatype CredentialBase = CredentialBase(provider: string, environment: string, cache: Option<Doc>)

  /** What one read of `content` yields: the document (or the lookup's error),
      the object afterwards and whether the collection was queried. */
  datatype ContentRead = ContentRead(content: Result<Doc>, after: CredentialBase, queried: bool)

  /** The `content` property: a query on the first read, the cached document after
      that. A found document is never empty (it carries `_id`), so it stays cached. */
  function Content(c: CredentialBase, coll: Collection): (r: ContentRead)
    ensures c.cache.Some? ==> r == ContentRead(Ok(c.cache.value), c, false)
    ensures c.cache.None? ==> r.queried && r.content == GetContent(coll, c.provider, c.environment)
    ensures r.content.Ok? ==> r.after == c.(cache := Some(r.content.value))
    ensures r.content.Err? ==> r.after == c
  {
    var f := Memo.Force(c.cache, (d: Doc) => true, GetContent(coll, c.provider, c.environment));
    ContentRead(f.value, c.(cache := f.cell), f.built)
  }

  /** Once a read has succeeded, later reads query nothing and return the same
      document, even against a collection that has changed since. */
  lemma ContentFetchedOnce(c: CredentialBase, coll: Collection, later: Collection)
    requires Content(c, coll).content.Ok?
    ensures var first := Content(c, coll);
            var second := Content(first.after, later);
            !second.queried && second.content == first.content && second.after == first.after
  {
  }

  /** The `$set` document of `save`: provider and environment first, then the
      content, whose values win on a key collision. */
  function SetFields(provider: string, environment: string, content: map<string, Json>): (r: map<string, Json>)
    ensures r.Keys == content.Keys + {"provider", "environment"}
    ensures forall k :: k in content ==> r[k] == content[k]
    ensures "provider" !in content ==> r["provider"] == JStr(provider)
    ensures "environment" !in content ==> r["environment"] == JStr(environment)
  {
    KeyOf(provider, environment) + content
  }

  /** The outcome of `find_one_and_update(..., upsert=True)`: the collection
      afterwards, the document as it was before (what the call returns; None when
      it inserted) and the document as stored afterwards. */
  datatype Saved = Saved(coll: Collection, before: Option<Doc>, doc: Doc)

  /** `save`: update the first document keyed by (provider, environment) with the
      `$set` fields, or insert one under the key Mongo generates (`freshId`). */
  function Save(coll: Collection, provider: string, environment: string,
                content: map<string, Json>, freshId: string): (r: Saved)
    ensures forall k :: k in SetFields(provider, environment, content) ==>
              k in r.doc.fields && r.doc.fields[k] == SetFields(provider, environment, content)[k]
    ensures r.before.None? ==>
              && (forall k :: 0 <= k < |coll| ==> !Matches(coll[k], KeyOf(provider, environment)))
              && r.doc == Doc(freshId, SetFields(provider, environment, content))
              && r.coll == coll + [r.doc]
    ensures r.before.Some? ==>
              exists k :: 0 <= k < |coll| && coll[k] == r.before.value
                && Matches(coll[k], KeyOf(provider, environment))
                && (forall j :: 0 <= j < k ==> !Matches(coll[j], KeyOf(provider, environment)))
                && r.doc.id == coll[k].id
                && r.coll == coll[k := r.doc]
  {
    var update := SetFields(provider, environment, content);
    match FirstIndex(coll, (d: Doc) => Matches(d, KeyOf(provider, environment)))
    case None =>
      var inserted := Doc(freshId, KeyOf(provider, environment) + update);
      assert KeyOf(provider, environment) + update == update;
      Saved(coll + [inserted], None, inserted)
    case Some(k) =>
      var updated := Doc(coll[k].id, coll[k].fields + update);
      Saved(coll[k := updated], Some(coll[k]), updated)
  }

  /** When the content does not rename its own key, the saved document is the one
      `get_content` then finds, carrying every content field. */
  lemma {:induction false} SaveThenGetContent(coll: Collection, provider: string, environment: string,
                                              content: map<string, Json>, freshId: string)
    requires "provider" in content ==> content["provider"] == JStr(provider)
    requires "environment" in content ==> content["environment"] == JStr(environment)
    ensures var s := Save(coll, provider, environment, content, freshId);
            && GetContent(s.coll, provider, environment) == Ok(s.doc)
            && forall k :: k in content ==> k in s.doc.fields && s.doc.fields[k] == content[k]
  {
    var key := KeyOf(provider, environment);
    var s := Save(coll, provider, environment, content, freshId);
    var update := SetFields(provider, environment, content);
    assert update["provider"] == JStr(provider) && update["environment"] == JStr(environment);
    assert Matches(s.doc, key);
    SavedIsFound(coll, provider, environment, content, freshId);
  }

  /** A saved document that carries its own key is the first match afterwards. */
  lemma SavedIsFound(coll: Collection, provider: string, environment: string,
                     content: map<string, Json>, freshId: string)
    requires Matches(Save(coll, provider, environment, content, freshId).doc, KeyOf(provider, environment))
    ensures var s := Save(coll, provider, environment, content, freshId);
            FindOne(s.coll, KeyOf(provider, environment)) == Some(s.doc)
  {
    var key := KeyOf(provider, environment);
    var s := Save(coll, provider, environment, content, freshId);
    if s.before.None? {
      assert s.coll[|coll|] == s.doc;
      FirstMatchAt(s.coll, key, |coll|);
    } else {
      var k :| 0 <= k < |coll| && coll[k] == s.before.value
                && Matches(coll[k], key)
                && (forall j :: 0 <= j < k ==> !Matches(coll[j], key))
                && s.doc.id == coll[k].id
                && s.coll == coll[k := s.doc];
      FirstMatchAt(s.coll, key, k);
    }
  }

  /** A document that matches, preceded only by documents that do not, is what
      `find_one` returns. */
  lemma FirstMatchAt(coll: Collection, filter: map<string, Json>, k: nat)
    requires k < |coll| && Matches(coll[k], filter)
    requires forall j :: 0 <= j < k ==> !Matches(coll[j], filter)
    ensures FindOne(coll, filter) == Some(coll[k])
  {
  }

  /** `delete`: `delete_one` on the (provider, environment) key removes the first
      matching document and nothing else. */
  function Delete(coll: Collection, provider: string, environment: string): (r: Collection)
    ensures (forall k :: 0 <= k < |coll| ==> !Matches(coll[k], KeyOf(provider, environment))) ==> r == coll
    ensures (exists k :: 0 <= k < |coll| && Matches(coll[k], KeyOf(provider, environment))) ==>
              exists k :: 0 <= k < |coll| && Matches(coll[k], KeyOf(provider, environment))
                && (forall j :: 0 <= j < k ==> !Matches(coll[j], KeyOf(provider, environment)))
                && r == coll[..k] + coll[k + 1..]
  {
    var key := KeyOf(provider, environment);
    match FirstIndex(coll, (d: Doc) => Matches(d, key))
    case None => coll
    case Some(k) => coll[..k] + coll[k + 1..]
  }

  /** `"Required fields {}".format(valid_fields)`. */
  function RequiredMessage(fields: seq<string>): (r: string)
    ensures IsPrefix("Required fields ", r)
  {
    "Required fields " + ListRepr(fields)
  }

  /** The base `valid_fields`: abstract. */
  const BaseValidFields: Result<seq<string>> := Err(NotImplementedError(""))

  /** The check `is_valid` performs: as many content keys as required fields,
      and every required field among them. */
  predicate Accepts(fields: seq<string>, content: map<string, Json>)
  {
    |fields| == |content.Keys| && forall i :: 0 <= i < |fields| ==> fields[i] in content
  }

  /** `is_valid`'s answer: the verdict and the error text it carries either way. */
  datatype Verdict = Verdict(valid: bool, error: string)

  /** `is_valid`, with the success return the source lacks (see
      IsValidAsWritten): the length check, then a scan for a missing field.
      `validFields` is the backend's list, or what its property raised. */
  method IsValid(validFields: Result<seq<string>>, content: map<string, Json>) returns (r: Result<Verdict>)
    ensures validFields.Err? ==> r == Err(validFields.error)
    ensures validFields.Ok? ==> r.Ok? && r.value.error == RequiredMessage(validFields.value)
    ensures validFields.Ok? ==> (r.value.valid <==> Accepts(validFields.value, content))
  {
    if validFields.Err? {
      return Err(validFields.error);
    }
    var fields := validFields.value;
    var error := RequiredMessage(fields);
    if |fields| != |content.Keys| {
      return Ok(Verdict(false, error));
    }
    var i := 0;
    while i < |fields|
      invariant 0 <= i <= |fields|
      invariant forall j :: 0 <= j < i ==> fields[j] in content
    {
      if fields[i] !in content {
        return Ok(Verdict(false, error));
      }
      i := i + 1;
    }
    return Ok(Verdict(true, error));
  }

  /** `is_valid` exactly as written: both rejections, and no `return` after the
      loop, so accepted content yields Python's None (here `None`). */
  function IsValidAsWritten(validFields: Result<seq<string>>, content: map<string, Json>): (r: Result<Option<Verdict>>)
    ensures validFields.Err? ==> r == Err(validFields.error)
    ensures validFields.Ok? ==> r.Ok?
    ensures validFields.Ok? ==> (r.value.None? <==> Accepts(validFields.value, content))
    ensures validFields.Ok? && r.value.Some? ==> r.value.value == Verdict(false, RequiredMessage(validFields.value))
  {
    match validFields
    case Err(e) => Err(e)
    case Ok(fields) =>
      if |fields| != |content.Keys| then Ok(Some(Verdict(false, RequiredMessage(fields))))
      else if exists i :: 0 <= i < |fields| && fields[i] !in content then Ok(Some(Verdict(false, RequiredMessage(fields))))
      else Ok(None)
  }

  predicate Distinct(fields: seq<string>)
  {
    forall i, j :: 0 <= i < j < |fields| ==> fields[i] != fields[j]
  }

  function ToSet(fields: seq<string>): set<string>
  {
    set f | f in fields
  }

  /** With distinct field names, the check is exact key-set equality. */
  lemma AcceptsIffSameKeys(fields: seq<string>, content: map<string, Json>)
    requires Distinct(fields)
    ensures Accepts(fields, content) <==> content.Keys == ToSet(fields)
  {
    DistinctCardinality(fields);
    if Accepts(fields, content) {
      assert ToSet(fields) <= content.Keys;
      SubsetOfSameSize(ToSet(fields), content.Keys);
    }
    if content.Keys == ToSet(fields) {
      forall i | 0 <= i < |fields|
        ensures fields[i] in content
      {
        assert fields[i] in ToSet(fields);
      }
    }
  }

  lemma {:induction false} DistinctCardinality(fields: seq<string>)
    requires Distinct(fields)
    ensures |ToSet(fields)| == |fields|
  {
    if |fields| > 0 {
      var rest := fields[1..];
      assert Distinct(rest) by {
        forall i, j | 0 <= i < j < |rest|
          ensures rest[i] != rest[j]
        {
          assert rest[i] == fields[i + 1] && rest[j] == fields[j + 1];
        }
      }
      DistinctCardinality(rest);
      assert ToSet(fields) == ToSet(rest) + {fields[0]};
      assert fields[0] !in ToSet(rest);
    }
  }

  lemma SubsetOfSameSize(a: set<string>, b: set<string>)
    requires a <= b && |a| == |b|
    ensures a == b
  {
    assert b == a + (b - a);
    assert a * (b - a) == {};
    assert |b - a| == 0;
  }
}

=== FILE: credentials_aws.dfy ===
/** Credentials of the block-storage cloud backend ('ebs'). */
module CredentialsAws {
  import opened Values
  import opened Credentials

  /** `CredentialAddAWS.valid_fields`. */
  const AwsFields: seq<string> := ["access_id", "secret_key", "region", "ebs_type", "device"]

  /* The properties `access_id`, `secret_key`, `region` and `ebs_type` read
     their key with `Lookup`, which raises KeyError when it is absent. */

  /** `device` is fixed: the stored 'device' value is never read. */
  function Device(content: map<string, Json>): (r: string)
    ensures r == "/dev/sdf"
  {
    "/dev/sdf"
  }

  /** `iops`: the stored value, None when absent. */
  function Iops(content: map<string, Json>): (r: Json)
    ensures "iops" in content ==> r == content["iops"]
    ensures "iops" !in content ==> r == JNull
  {
    LookupOr(content, "iops", JNull)
  }

  /** `force_detach`: the stored value, False when absent. */
  function ForceDetach(content: map<string, Json>): (r: Json)
    ensures "force_detach" in content ==> r == content["force_detach"]
    ensures "force_detach" !in content ==> r == JBool(false)
  {
    LookupOr(content, "force_detach", JBool(false))
  }

  /** AWS content passes validation exactly when its keys are the five fields. */
  lemma AwsValidIffExactKeys(content: map<string, Json>)
    ensures Accepts(AwsFields, content) <==>
            content.Keys == {"access_id", "secret_key", "region", "ebs_type", "device"}
  {
    AcceptsIffSameKeys(AwsFields, content);
    assert ToSet(AwsFields) == {"access_id", "secret_key", "region", "ebs_type", "device"};
  }

  /** Validated content cannot carry 'iops' or 'force_detach', so it always
      yields the defaults None and False. */
  lemma AwsValidatedUsesDefaults(content: map<string, Json>)
    requires Accepts(AwsFields, content)
    ensures Iops(content) == JNull && ForceDetach(content) == JBool(false)
  {
    AwsValidIffExactKeys(content);
  }
}

=== FILE: credentials_faas.dfy ===
/** Credentials of the network-export backend ('faas'). */
module CredentialsFaaS {
  import opened Values
  import opened Credentials

  /** `CredentialAddFaaS.valid_fields`. */
  const FaaSFields: seq<string> :=
    ["user", "password", "endpoint", "is_secure", "project", "category_id", "access_type", "tenant_id"]

  /* Every property (`user`, `password`, `endpoint`, `project`, `is_secure`,
     `category_id`, `access_type`, `tenant_id`) reads its key with `Lookup`,
     which raises KeyError when it is absent. */

  /** The FaaS field list has no repeated name. */
  lemma FaaSFieldsDistinct()
    ensures Distinct(FaaSFields)
  {
  }

  /** FaaS content passes validation exactly when its keys are the eight fields. */
  lemma FaaSValidIffExactKeys(content: map<string, Json>)
    ensures Accepts(FaaSFields, content) <==>
            content.Keys == {"user", "password", "endpoint", "is_secure", "project",
                             "category_id", "access_type", "tenant_id"}
  {
    FaaSFieldsDistinct();
    FaaSFieldSet();
    AcceptsIffSameKeys(FaaSFields, content);
  }

  /** The names as a set. */
  lemma FaaSFieldSet()
    ensures ToSet(FaaSFields) == {"user", "password", "endpoint", "is_secure", "project",
                                  "category_id", "access_type", "tenant_id"}
  {
  }

  /** Content without 'tenant_id', or with a ninth key, is rejected. */
  lemma FaaSMissingOrExtraRejected(content: map<string, Json>)
    requires "tenant_id" !in content || |content.Keys| == 9
    ensures !Accepts(FaaSFields, content)
  {
    assert FaaSFields[7] == "tenant_id";
  }
}

=== FILE: credentials_gce.dfy ===
/** Credentials of the compute-disk cloud backend ('gce'). */
module CredentialsGce {
  import opened Values
  import opened Credentials

  /** `CredentialAddGce.valid_fields`: ten names, `provider` and `environment` among them. */
  const GceFields: seq<string> :=
    ["provider", "service_account", "environment", "offerings", "project",
     "availability_zones", "subnetwork", "templates", "region", "scopes"]

  /* The properties `project`, `service_account`, `scopes` and `region` read
     their key with `Lookup`, which raises KeyError when it is absent. */

  /** GCE content passes validation exactly when its keys are the ten fields. */
  lemma GceValidIffExactKeys(content: map<string, Json>)
    ensures Accepts(GceFields, content) <==>
            content.Keys == {"provider", "service_account", "environment", "offerings", "project",
                             "availability_zones", "subnetwork", "templates", "region", "scopes"}
  {
    GceFieldsDistinct();
    GceFieldSet();
    AcceptsIffSameKeys(GceFields, content);
  }

  /** No name is listed twice. */
  lemma GceFieldsDistinct()
    ensures Distinct(GceFields)
  {
  }

  /** The names as a set. */
  lemma GceFieldSet()
    ensures ToSet(GceFields) == {"provider", "service_account", "environment", "offerings", "project",
                                 "availability_zones", "subnetwork", "templates", "region", "scopes"}
  {
  }

  /** The eight-key fixture credential (no 'region', no 'scopes') is rejected
      with the "Required fields" text. */
  lemma GceFixtureRejected(content: map<string, Json>)
    requires content.Keys == {"provider", "service_account", "environment", "offerings", "project",
                              "availability_zones", "subnetwork", "templates"}
    ensures !Accepts(GceFields, content)
    ensures IsValidAsWritten(Ok(GceFields), content) == Ok(Some(Verdict(false, RequiredMessage(GceFields))))
  {
    assert "region" !in content;
    assert GceFields[8] == "region";
  }

  /** Validated GCE content names its own provider and environment, and the
      saved document takes those values from the content, not from the key. */
  lemma GceSavedKeyComesFromContent(coll: Collection, provider: string, environment: string,
                                    content: map<string, Json>, freshId: string)
    requires Accepts(GceFields, content)
    ensures var s := Save(coll, provider, environment, content, freshId);
            "provider" in content && "environment" in content
            && s.doc.fields["provider"] == content["provider"]
            && s.doc.fields["environment"] == content["environment"]
  {
    assert GceFields[0] == "provider" && GceFields[2] == "environment";
  }
}

=== FILE: credentials_k8s.dfy ===
/** Credentials of the container-orchestrator backend ('k8s'). */
module CredentialsK8s {
  import opened Values
  import opened Credentials

  /** `CredentialAddK8s.valid_fields`. */
  const K8sFields: seq<string> := ["kube_config_path", "kube_config_content"]

  /* The properties `kube_config_path` and `kube_config_content` read their
     key with `Lookup`, which raises KeyError when it is absent. */

  /** K8s content passes validation exactly when its keys are the two fields. */
  lemma K8sValidIffExactKeys(content: map<string, Json>)
    ensures Accepts(K8sFields, content) <==> content.Keys == {"kube_config_path", "kube_config_content"}
  {
    AcceptsIffSameKeys(K8sFields, content);
    assert ToSet(K8sFields) == {"kube_config_path", "kube_config_content"};
  }

  /** A third key fails the length check; two keys with one misnamed fail the
      membership check. Both are rejections by `is_valid`. */
  lemma K8sWrongKeysRejected(content: map<string, Json>)
    requires |content.Keys| == 3 || (|content.Keys| == 2 && "kube_config_content" !in content)
    ensures !Accepts(K8sFields, content)
    ensures IsValidAsWritten(Ok(K8sFields), content) == Ok(Some(Verdict(false, RequiredMessage(K8sFields))))
  {
    assert K8sFields[1] == "kube_config_content";
  }
}

=== FILE: faas.dfy ===
/** The FaaS provider: its own volume document (the export identifier is an
    integer) and volume creation, which asks the export service for an export
    shared with the group and records it once the export exists. */
module ProviderFaaS {
  import opened Values
  import opened FaaSClient

  /** A FaaSVolume document. Fields hold whatever Python value was assigned
      (JNull while unset); `id` is the key Mongo assigns on the first save. */
  datatype FaaSVolume = FaaSVolume(
    id: Option<string>,
    sizeKb: Json,
    group: Json,
    resourceId: Json,
    identifier: Json,
    path: Json,
    ownerAddress: Json)

  /** `FaaSVolume()`: every field unset. */
  const NewFaaSVolume: FaaSVolume := FaaSVolume(None, JNull, JNull, JNull, JNull, JNull, JNull)

  /** A required integer field: set, and an int (a bool is an int to Python). */
  predicate IntFieldOk(j: Json)
  {
    j.JInt? || j.JBool?
  }

  /** A required string field: set, a str, and within its maximum length. */
  predicate StrFieldOk(j: Json, maxLength: nat)
  {
    j.JStr? && |j.s| <= maxLength
  }

  /** The first field, in declaration order, that save-time validation rejects. */
  function InvalidFaaSField(v: FaaSVolume): (r: Option<string>)
    ensures r.None? <==> IntFieldOk(v.sizeKb) && StrFieldOk(v.group, 50) && StrFieldOk(v.resourceId, 255)
                         && IntFieldOk(v.identifier) && StrFieldOk(v.path, 1000) && StrFieldOk(v.ownerAddress, 20)
    ensures r.Some? ==> r.value in {"size_kb", "group", "resource_id", "identifier", "path", "owner_address"}
  {
    if !IntFieldOk(v.sizeKb) then Some("size_kb")
    else if !StrFieldOk(v.group, 50) then Some("group")
    else if !StrFieldOk(v.resourceId, 255) then Some("resource_id")
    else if !IntFieldOk(v.identifier) then Some("identifier")
    else if !StrFieldOk(v.path, 1000) then Some("path")
    else if !StrFieldOk(v.ownerAddress, 20) then Some("owner_address")
    else None
  }

  /** `save()` of a new FaaSVolume: validation, then an insert under `freshId`. */
  function SaveNew(store: seq<FaaSVolume>, v: FaaSVolume, freshId: string): (r: Result<(seq<FaaSVolume>, FaaSVolume)>)
    ensures r.Ok? <==> InvalidFaaSField(v).None?
    ensures r.Err? ==> r.error == ValidationError(InvalidFaaSField(v).value)
    ensures r.Ok? ==> r.value.1 == v.(id := Some(freshId)) && r.value.0 == store + [r.value.1]
  {
    match InvalidFaaSField(v)
    case Some(f) => Err(ValidationError(f))
    case None => var saved := v.(id := Some(freshId)); Ok((store + [saved], saved))
  }

  predicate InGroup(v: FaaSVolume, group: Json)
  {
    v.group == group
  }

  /** The `resource_id` a new member of the group takes: that of the first
      stored FaaSVolume of the group (a fetched document is always truthy),
      or `otherwise` when the group has none. */
  function GroupResource(store: seq<FaaSVolume>, group: Json, otherwise: Json): Json
  {
    match FirstIndex(store, (w: FaaSVolume) => InGroup(w, group))
    case None => otherwise
    case Some(k) => store[k].resourceId
  }

  /** The group's resource, characterised by position: the first member's,
      or the fallback for an empty group. */
  lemma GroupResourceIsFirstMember(store: seq<FaaSVolume>, group: Json, otherwise: Json)
    ensures forall k :: 0 <= k < |store| && InGroup(store[k], group) && (forall j :: 0 <= j < k ==> !InGroup(store[j], group))
              ==> GroupResource(store, group, otherwise) == store[k].resourceId
    ensures (forall k :: 0 <= k < |store| ==> !InGroup(store[k], group)) ==> GroupResource(store, group, otherwise) == otherwise
  {
    var i := FirstIndex(store, (w: FaaSVolume) => InGroup(w, group));
    forall k | 0 <= k < |store| && InGroup(store[k], group) && (forall j :: 0 <= j < k ==> !InGroup(store[j], group))
      ensures GroupResource(store, group, otherwise) == store[k].resourceId
    {
      assert i.Some?;
      assert InGroup(store[i.value], group);
      assert !(i.value < k) && !(i.value > k);
    }
  }

  /** `set_group`: record the group and take the resource of its first
      stored member; nothing else changes. */
  function SetGroup(v: FaaSVolume, store: seq<FaaSVolume>, group: Json): (r: FaaSVolume)
    ensures r == v.(group := group, resourceId := r.resourceId)
    ensures (forall k :: 0 <= k < |store| ==> !InGroup(store[k], group)) ==> r.resourceId == v.resourceId
    ensures forall k :: 0 <= k < |store| && InGroup(store[k], group) && (forall j :: 0 <= j < k ==> !InGroup(store[j], group))
              ==> r.resourceId == store[k].resourceId
  {
    GroupResourceIsFirstMember(store, group, v.resourceId);
    v.(group := group, resourceId := GroupResource(store, group, v.resourceId))
  }

  /** The outcome of `create_volume`: the volume or the exception, the store
      afterwards and the service calls made. */
  datatype Created = Created(volume: Result<FaaSVolume>, store: seq<FaaSVolume>, calls: seq<FaaSCall>)

  /** `create_volume`: size and group first; one export request carrying the
      group's resource; the export's id, resource and path plus the owner are
      recorded; a single save at the very end. */
  function CreateVolume(store: seq<FaaSVolume>, c: Client, history: seq<FaaSCall>,
                        group: Json, sizeKb: Json, toAddress: Json, freshId: string): (r: Created)
    ensures var resource := GroupResource(store, group, JNull);
            && (r.calls == history
                || (Connect(c.credential).Ok? && "category_id" in c.credential.value
                    && r.calls == history + [ExportCreate(sizeKb, c.credential.value["category_id"], resource)]))
    ensures r.volume.Err? ==> r.store == store
    ensures r.volume.Ok? ==>
              |r.calls| == |history| + 1 &&
              var v := r.volume.value;
              var reply := c.api(history, r.calls[|history|]);
              && reply.status == 201
              && r.store == store + [v]
              && v.id == Some(freshId)
              && v.sizeKb == sizeKb && v.group == group && v.ownerAddress == toAddress
              && Index(reply.content, "id") == Ok(v.identifier)
              && Index(reply.content, "resource_id") == Ok(v.resourceId)
              && Index(reply.content, "full_path") == Ok(v.path)
  {
    var v := SetGroup(NewFaaSVolume.(sizeKb := sizeKb), store, group);
    var (created, calls) := CreateExport(c, history, v.sizeKb, v.resourceId);
    match created
    case Err(e) => Created(Err(e), store, calls)
    case Ok(content) =>
      match Index(content, "id")
      case Err(e) => Created(Err(e), store, calls)
      case Ok(identifier) =>
        match Index(content, "resource_id")
        case Err(e) => Created(Err(e), store, calls)
        case Ok(resourceId) =>
          match Index(content, "full_path")
          case Err(e) => Created(Err(e), store, calls)
          case Ok(path) =>
            var filled := v.(identifier := identifier, resourceId := resourceId, path := path, ownerAddress := toAddress);
            match SaveNew(store, filled, freshId)
            case Err(e) => Created(Err(e), store, calls)
            case Ok((after, saved)) => Created(Ok(saved), after, calls)
  }

  /** A refused export request stores nothing and surfaces the service's
      status and reply. */
  lemma RefusedExportStoresNothing(store: seq<FaaSVolume>, c: Client, history: seq<FaaSCall>,
                                   group: Json, sizeKb: Json, toAddress: Json, freshId: string)
    requires Connect(c.credential).Ok? && "category_id" in c.credential.value
    requires var call := ExportCreate(sizeKb, c.credential.value["category_id"], GroupResource(store, group, JNull));
             c.api(history, call).status != 201
    ensures var call := ExportCreate(sizeKb, c.credential.value["category_id"], GroupResource(store, group, JNull));
            var reply := c.api(history, call);
            CreateVolume(store, c, history, group, sizeKb, toAddress, freshId)
              == Created(Err(APIError(reply.status, Content(reply.content))), store, history + [call])
  {
  }

  /** A second volume of a group asks for an export on the resource of the
      group's first volume. */
  lemma SecondVolumeSharesResource(store: seq<FaaSVolume>, c: Client, history: seq<FaaSCall>,
                                   group: Json, sizeKb: Json, toAddress: Json, freshId: string, k: nat)
    requires k < |store| && InGroup(store[k], group)
    requires forall j :: 0 <= j < k ==> !InGroup(store[j], group)
    requires Connect(c.credential).Ok? && "category_id" in c.credential.value
    ensures var r := CreateVolume(store, c, history, group, sizeKb, toAddress, freshId);
            r.calls == history + [ExportCreate(sizeKb, c.credential.value["category_id"], store[k].resourceId)]
  {
    GroupResourceIsFirstMember(store, group, JNull);
  }

  /** A successful creation followed by a second one in the same group: the
      second export request carries the resource the first export returned,
      unless an older member of the group was stored already. */
  lemma CreatedVolumeLeadsNewGroup(store: seq<FaaSVolume>, c: Client, history: seq<FaaSCall>,
                                   group: Json, sizeKb: Json, toAddress: Json, freshId: string)
    requires forall k :: 0 <= k < |store| ==> !InGroup(store[k], group)
    requires CreateVolume(store, c, history, group, sizeKb, toAddress, freshId).volume.Ok?
    ensures var r := CreateVolume(store, c, history, group, sizeKb, toAddress, freshId);
            GroupResource(r.store, group, JNull) == r.volume.value.resourceId
  {
    var r := CreateVolume(store, c, history, group, sizeKb, toAddress, freshId);
    assert r.store[|store|] == r.volume.value;
    GroupResourceIsFirstMember(r.store, group, JNull);
  }

  /** An accepted export whose reply holds the id, resource and path, with
      every field then valid, is saved: the store gains exactly the new
      volume, under the fresh id. */
  lemma AcceptedExportIsSaved(store: seq<FaaSVolume>, c: Client, history: seq<FaaSCall>,
                              group: Json, sizeKb: Json, toAddress: Json, freshId: string)
    requires Connect(c.credential).Ok? && "category_id" in c.credential.value
    requires var call := ExportCreate(sizeKb, c.credential.value["category_id"], GroupResource(store, group, JNull));
             var reply := c.api(history, call);
             && reply.status == 201 && reply.content.JObj?
             && "id" in reply.content.fields && "resource_id" in reply.content.fields
             && "full_path" in reply.content.fields
             && IntFieldOk(sizeKb) && StrFieldOk(group, 50) && StrFieldOk(toAddress, 20)
             && IntFieldOk(reply.content.fields["id"])
             && StrFieldOk(reply.content.fields["resource_id"], 255)
             && StrFieldOk(reply.content.fields["full_path"], 1000)
    ensures var r := CreateVolume(store, c, history, group, sizeKb, toAddress, freshId);
            && r.volume.Ok?
            && r.volume.value.id == Some(freshId)
            && r.store == store + [r.volume.value]
  {
  }
}

=== FILE: faas_client.dfy ===
/** The client of the file-export service (FaaS): every call is checked
    against the status code it must return, access grants are looked up before
    they are created or removed, and restore jobs are polled a bounded number
    of times. */
module FaaSClient {
  import opened Values

  /** The service calls, with the arguments the client passes. */
  datatype FaaSCall =
    | ExportCreate(sizeKb: Json, categoryId: Json, resourceId: Json)
    | ExportDelete(exportId: Json)
    | AccessList(exportId: Json)
    | AccessCreate(exportId: Json, accessType: Json, address: Json)
    | AccessDelete(exportId: Json, accessId: Json)
    | QuotaPost(exportId: Json, newSizeKb: Json)
    | SnapshotCreate(exportId: Json)
    | SnapshotDelete(exportId: Json, snapshotId: Json)
    | SnapshotRestore(exportId: Json, snapshotId: Json)
    | JobsGet(jobId: Json)

  /** A reply: the HTTP status and the decoded body. */
  datatype Reply = Reply(status: int, content: Json)

  /** The service, as the reply it gives to a call after a history of calls. */
  type Api = (seq<FaaSCall>, FaaSCall) -> Reply

  /** A `FaaSClient`: the service and the credential content it reads (or the
      error reading the stored credential raises). */
  datatype Client = Client(api: Api, credential: Result<map<string, Json>>)

  /** The status each call must return: 201 for the three creations, 200 for
      every other call. */
  function ExpectedStatus(call: FaaSCall): (code: int)
    ensures code == 201 <==> call.ExportCreate? || call.AccessCreate? || call.SnapshotCreate?
    ensures code == 200 <==> !(call.ExportCreate? || call.AccessCreate? || call.SnapshotCreate?)
  {
    match call
    case ExportCreate(_, _, _) => 201
    case AccessCreate(_, _, _) => 201
    case SnapshotCreate(_) => 201
    case _ => 200
  }

  /** The library connection: endpoint, user, password, project, and `insecure`
      as the negation of `is_secure`. */
  datatype Conn = Conn(authUrl: Json, user: Json, key: Json, tenantName: Json, insecure: bool)

  /** The `client` property: built from five credential fields, read in order. */
  function Connect(credential: Result<map<string, Json>>): (r: Result<Conn>)
    ensures r.Ok? <==> credential.Ok? && "endpoint" in credential.value && "user" in credential.value
                       && "password" in credential.value && "project" in credential.value
                       && "is_secure" in credential.value
    ensures r.Ok? ==> var c := credential.value;
                      r.value == Conn(c["endpoint"], c["user"], c["password"], c["project"], !Truthy(c["is_secure"]))
  {
    var content :- credential;
    var authUrl :- Lookup(content, "endpoint");
    var user :- Lookup(content, "user");
    var key :- Lookup(content, "password");
    var tenant :- Lookup(content, "project");
    var secure :- Lookup(content, "is_secure");
    Ok(Conn(authUrl, user, key, tenant, !Truthy(secure)))
  }

  /** The status check of `execute`: the body when the status is the expected
      one, else APIError carrying the status and the body. */
  function Checked(call: FaaSCall, reply: Reply): (r: Result<Json>)
    ensures r.Ok? <==> reply.status == ExpectedStatus(call)
    ensures r.Ok? ==> r.value == reply.content
    ensures r.Err? ==> r.error == APIError(reply.status, Content(reply.content))
  {
    if reply.status != ExpectedStatus(call) then Err(APIError(reply.status, Content(reply.content)))
    else Ok(reply.content)
  }

  /** `execute`: issue the call and check its status. */
  function Execute(c: Client, history: seq<FaaSCall>, call: FaaSCall): (r: (Result<Json>, seq<FaaSCall>))
    ensures r.1 == history + [call]
    ensures r.0 == Checked(call, c.api(history, call))
  {
    (Checked(call, c.api(history, call)), history + [call])
  }

  /** A call whose arguments need no credential field: connect, then execute. */
  function Request(c: Client, history: seq<FaaSCall>, call: FaaSCall): (r: (Result<Json>, seq<FaaSCall>))
    ensures Connect(c.credential).Err? ==> r == (Err(Connect(c.credential).error), history)
    ensures Connect(c.credential).Ok? ==> r == Execute(c, history, call)
  {
    match Connect(c.credential)
    case Err(e) => (Err(e), history)
    case Ok(_) => Execute(c, history, call)
  }

  /** `create_export`: the size, the credential's category and the resource id. */
  function CreateExport(c: Client, history: seq<FaaSCall>, sizeKb: Json, resourceId: Json): (r: (Result<Json>, seq<FaaSCall>))
    ensures r.1 == history
            || (Connect(c.credential).Ok? && "category_id" in c.credential.value
                && r.1 == history + [ExportCreate(sizeKb, c.credential.value["category_id"], resourceId)])
    ensures r.0.Ok? ==> Connect(c.credential).Ok? && "category_id" in c.credential.value
                        && var call := ExportCreate(sizeKb, c.credential.value["category_id"], resourceId);
                           r.1 == history + [call] && c.api(history, call).status == 201
                           && r.0.value == c.api(history, call).content
  {
    match Connect(c.credential)
    case Err(e) => (Err(e), history)
    case Ok(_) =>
      match Lookup(c.credential.value, "category_id")
      case Err(e) => (Err(e), history)
      case Ok(category) => Execute(c, history, ExportCreate(sizeKb, category, resourceId))
  }

  /** `list_access`. */
  function ListAccess(c: Client, history: seq<FaaSCall>, exportId: Json): (r: (Result<Json>, seq<FaaSCall>))
  {
    Request(c, history, AccessList(exportId))
  }

  /** `access['host'] == address`. */
  predicate ForHost(access: Json, address: Json)
  {
    Index(access, "host") == Ok(address)
  }

  /** `access` has a 'host' and it is not `address`. */
  predicate OtherHost(access: Json, address: Json)
  {
    Index(access, "host").Ok? && Index(access, "host").value != address
  }

  /** The loop of `check_access_exist` over a listed sequence: the first access
      for the address; an entry without a readable 'host' raises. */
  function ScanAccess(items: seq<Json>, address: Json): (r: Result<Option<Json>>)
    ensures r.Ok? && r.value.Some? ==>
              exists k :: 0 <= k < |items| && items[k] == r.value.value && ForHost(items[k], address)
                && forall j :: 0 <= j < k ==> OtherHost(items[j], address)
    ensures r == Ok(None) <==> forall k :: 0 <= k < |items| ==> OtherHost(items[k], address)
    ensures r.Err? ==> exists k :: 0 <= k < |items| && Index(items[k], "host").Err?
  {
    if |items| == 0 then Ok(None)
    else
      match Index(items[0], "host")
      case Err(e) => Err(e)
      case Ok(host) =>
        if host == address then Ok(Some(items[0]))
        else
          var rest := ScanAccess(items[1..], address);
          assert forall j :: 1 <= j < |items| ==> items[j] == items[1..][j - 1];
          assert rest.Ok? && rest.value.Some? ==>
                   exists k :: 0 <= k < |items| && items[k] == rest.value.value && ForHost(items[k], address)
                     && forall j :: 0 <= j < k ==> OtherHost(items[j], address) by {
            if rest.Ok? && rest.value.Some? {
              var k :| 0 <= k < |items[1..]| && items[1..][k] == rest.value.value && ForHost(items[1..][k], address)
                       && forall j :: 0 <= j < k ==> OtherHost(items[1..][j], address);
              assert items[k + 1] == rest.value.value;
              assert forall j :: 0 <= j < k + 1 ==> OtherHost(items[j], address) by {
                forall j | 0 <= j < k + 1 ensures OtherHost(items[j], address) {
                  if j > 0 { assert items[j] == items[1..][j - 1]; }
                }
              }
            }
          }
          rest
  }

  /** Iterating the listed body: a list is scanned; an empty string or object
      yields nothing; iterating a non-empty one gives strings, which cannot be
      indexed by 'host'; other values are not iterable. */
  function FindAccess(listed: Json, address: Json): (r: Result<Option<Json>>)
    ensures listed.JList? ==> r == ScanAccess(listed.items, address)
    ensures r.Ok? && r.value.Some? ==> listed.JList? && r.value.value in listed.items && ForHost(r.value.value, address)
  {
    match listed
    case JList(items) => ScanAccess(items, address)
    case JObj(fields) => if |fields| == 0 then Ok(None) else Err(TypeError(STRING_INDICES_MESSAGE))
    case JStr(text) => if |text| == 0 then Ok(None) else Err(TypeError(STRING_INDICES_MESSAGE))
    case _ => Err(TypeError("object is not iterable"))
  }

  /** `check_access_exist`: list the accesses of the export and find the one for
      the address. */
  function CheckAccessExist(c: Client, history: seq<FaaSCall>, exportId: Json, address: Json): (r: (Result<Option<Json>>, seq<FaaSCall>))
    ensures r.0.Ok? ==> Connect(c.credential).Ok?
                        && r.1 == history + [AccessList(exportId)]
                        && var reply := c.api(history, AccessList(exportId));
                           reply.status == 200 && r.0 == FindAccess(reply.content, address)
    ensures r.1 == history || r.1 == history + [AccessList(exportId)]
  {
    var (listed, h) := ListAccess(c, history, exportId);
    match listed
    case Err(e) => (Err(e), h)
    case Ok(content) => (FindAccess(content, address), h)
  }

  /** An access found for a host is a non-empty dict, so it is truthy. */
  lemma FoundAccessIsTruthy(access: Json, address: Json)
    requires ForHost(access, address)
    ensures Truthy(access)
  {
    assert "host" in access.fields;
  }

  /** `create_access`: an existing access for the address is returned as it
      is; otherwise it is created with the credential's access type. */
  function CreateAccess(c: Client, history: seq<FaaSCall>, exportId: Json, address: Json): (r: (Result<Json>, seq<FaaSCall>))
    ensures var (found, h) := CheckAccessExist(c, history, exportId, address);
            && (found.Err? ==> r == (Err(found.error), h))
            && (found.Ok? && found.value.Some? ==> r == (Ok(found.value.value), h))
            && (found.Ok? && found.value.None? ==>
                  match Lookup(c.credential.value, "access_type")
                  case Err(e) => r == (Err(e), h)
                  case Ok(accessType) => r == Execute(c, h, AccessCreate(exportId, accessType, address)))
  {
    var (found, h) := CheckAccessExist(c, history, exportId, address);
    match found
    case Err(e) => (Err(e), h)
    case Ok(access) =>
      if access.Some? then
        FoundAccessIsTruthy(access.value, address);
        (Ok(access.value), h)
      else
        match Lookup(c.credential.value, "access_type")
        case Err(e) => (Err(e), h)
        case Ok(accessType) => Execute(c, h, AccessCreate(exportId, accessType, address))
  }

  predicate CreatesAccess(calls: seq<FaaSCall>)
  {
    exists i :: 0 <= i < |calls| && calls[i].AccessCreate?
  }

  predicate DeletesAccess(calls: seq<FaaSCall>)
  {
    exists i :: 0 <= i < |calls| && calls[i].AccessDelete?
  }

  /** Granting access is idempotent: when the listing already holds an access
      for the address, that access is returned and the only call made is the
      listing. */
  lemma CreateAccessIdempotent(c: Client, history: seq<FaaSCall>, exportId: Json, address: Json, k: nat)
    requires Connect(c.credential).Ok?
    requires var reply := c.api(history, AccessList(exportId));
             && reply.status == 200 && reply.content.JList? && k < |reply.content.items|
             && ForHost(reply.content.items[k], address)
             && forall j :: 0 <= j < k ==> OtherHost(reply.content.items[j], address)
    ensures var items := c.api(history, AccessList(exportId)).content.items;
            CreateAccess(c, history, exportId, address) == (Ok(items[k]), history + [AccessList(exportId)])
  {
    var items := c.api(history, AccessList(exportId)).content.items;
    FirstAccessIsFound(items, address, k);
  }

  /** The scan returns the first access for the address. */
  lemma {:induction false} FirstAccessIsFound(items: seq<Json>, address: Json, k: nat)
    requires k < |items| && ForHost(items[k], address)
    requires forall j :: 0 <= j < k ==> OtherHost(items[j], address)
    ensures ScanAccess(items, address) == Ok(Some(items[k]))
    decreases k
  {
    if k > 0 {
      assert OtherHost(items[0], address);
      FirstAccessIsFound(items[1..], address, k - 1);
    }
  }

  /** When no listed access is for the address, the access is created with the
      credential's access type. */
  lemma CreateAccessWhenMissing(c: Client, history: seq<FaaSCall>, exportId: Json, address: Json)
    requires Connect(c.credential).Ok? && "access_type" in c.credential.value
    requires var reply := c.api(history, AccessList(exportId));
             && reply.status == 200 && reply.content.JList?
             && forall j :: 0 <= j < |reply.content.items| ==> OtherHost(reply.content.items[j], address)
    ensures var h := history + [AccessList(exportId)];
            CreateAccess(c, history, exportId, address)
              == Execute(c, h, AccessCreate(exportId, c.credential.value["access_type"], address))
  {
  }

  /** `delete_access`: nothing to revoke answers True without a delete call;
      otherwise the access is deleted by its 'id'. */
  function DeleteAccess(c: Client, history: seq<FaaSCall>, exportId: Json, address: Json): (r: (Result<Json>, seq<FaaSCall>))
    ensures var (found, h) := CheckAccessExist(c, history, exportId, address);
            && (found.Err? ==> r == (Err(found.error), h))
            && (found == Ok(None) ==> r == (Ok(JBool(true)), h))
            && (found.Ok? && found.value.Some? ==>
                  match Index(found.value.value, "id")
                  case Err(e) => r == (Err(e), h)
                  case Ok(id) => r == Execute(c, h, AccessDelete(exportId, id)))
    ensures !DeletesAccess(r.1[|history|..]) ==> r.1 == history || r.1 == history + [AccessList(exportId)]
  {
    var (found, h) := CheckAccessExist(c, history, exportId, address);
    assert h[|history|..] == [] || h[|history|..] == [AccessList(exportId)];
    match found
    case Err(e) => (Err(e), h)
    case Ok(access) =>
      if access.None? then (Ok(JBool(true)), h)
      else
        match Index(access.value, "id")
        case Err(e) => (Err(e), h)
        case Ok(id) =>
          assert (h + [AccessDelete(exportId, id)])[|history|..][|h| - |history|] == AccessDelete(exportId, id);
          Execute(c, h, AccessDelete(exportId, id))
  }

  /** Revoking an access that does not exist is a success that deletes nothing. */
  lemma DeleteMissingAccessIsNoOp(c: Client, history: seq<FaaSCall>, exportId: Json, address: Json)
    requires Connect(c.credential).Ok?
    requires var reply := c.api(history, AccessList(exportId));
             && reply.status == 200 && reply.content.JList?
             && forall j :: 0 <= j < |reply.content.items| ==> OtherHost(reply.content.items[j], address)
    ensures DeleteAccess(c, history, exportId, address) == (Ok(JBool(true)), history + [AccessList(exportId)])
  {
  }

  /** `delete_export`: make sure the owner has access, then delete the export. */
  function DeleteExport(c: Client, history: seq<FaaSCall>, exportId: Json, owner: Json): (r: (Result<Json>, seq<FaaSCall>))
    ensures var (granted, h) := CreateAccess(c, history, exportId, owner);
            && (granted.Err? ==> r == (Err(granted.error), h))
            && (granted.Ok? ==> r == Execute(c, h, ExportDelete(exportId)))
    ensures r.0.Ok? ==> |r.1| > |history| && r.1[..|history| + 1] == history + [AccessList(exportId)]
  {
    var (granted, h) := CreateAccess(c, history, exportId, owner);
    if granted.Err? then (Err(granted.error), h)
    else
      assert h[..|history| + 1] == history + [AccessList(exportId)];
      Execute(c, h, ExportDelete(exportId))
  }

  /** `resize`. */
  function Resize(c: Client, history: seq<FaaSCall>, exportId: Json, newSizeKb: Json): (r: (Result<Json>, seq<FaaSCall>))
  {
    Request(c, history, QuotaPost(exportId, newSizeKb))
  }

  /** `create_snapshot`. */
  function CreateSnapshot(c: Client, history: seq<FaaSCall>, exportId: Json): (r: (Result<Json>, seq<FaaSCall>))
  {
    Request(c, history, SnapshotCreate(exportId))
  }

  /** `delete_snapshot`. */
  function DeleteSnapshot(c: Client, history: seq<FaaSCall>, exportId: Json, snapshotId: Json): (r: (Result<Json>, seq<FaaSCall>))
  {
    Request(c, history, SnapshotDelete(exportId, snapshotId))
  }

  /** `restore_snapshot`. */
  function RestoreSnapshot(c: Client, history: seq<FaaSCall>, exportId: Json, snapshotId: Json): (r: (Result<Json>, seq<FaaSCall>))
  {
    Request(c, history, SnapshotRestore(exportId, snapshotId))
  }

  /** Each operation succeeds only when the service answers with its call's
      code: 201 for export, access and snapshot creation, 200 otherwise. */
  lemma OperationStatusCodes(c: Client, h: seq<FaaSCall>, e: Json, s: Json, n: Json)
    ensures Resize(c, h, e, n).0.Ok? ==> c.api(h, QuotaPost(e, n)).status == 200
    ensures CreateSnapshot(c, h, e).0.Ok? ==> c.api(h, SnapshotCreate(e)).status == 201
    ensures DeleteSnapshot(c, h, e, s).0.Ok? ==> c.api(h, SnapshotDelete(e, s)).status == 200
    ensures RestoreSnapshot(c, h, e, s).0.Ok? ==> c.api(h, SnapshotRestore(e, s)).status == 200
    ensures ListAccess(c, h, e).0.Ok? ==> c.api(h, AccessList(e)).status == 200
    ensures Connect(c.credential).Ok? && c.api(h, QuotaPost(e, n)).status == 201 ==>
              Resize(c, h, e, n).0 == Err(APIError(201, Content(c.api(h, QuotaPost(e, n)).content)))
  {
  }

  /** Default number of job polls. */
  const JOB_ATTEMPTS: nat := 50

  /** What one poll of a job tells: still running, finished with a result, or
      a failure (a bad status or a job without 'status' or 'result'). */
  datatype JobPoll = Pending | Done(result: Json) | Failed(error: Exc)

  function Classify(jobId: Json, reply: Reply): (r: JobPoll)
    ensures r.Done? ==> reply.status == 200 && Index(reply.content, "status") == Ok(JStr("finished"))
                        && Index(reply.content, "result") == Ok(r.result)
    ensures r.Pending? ==> reply.status == 200 && Index(reply.content, "status").Ok?
                           && Index(reply.content, "status").value != JStr("finished")
  {
    match Checked(JobsGet(jobId), reply)
    case Err(e) => Failed(e)
    case Ok(job) =>
      match Index(job, "status")
      case Err(e) => Failed(e)
      case Ok(status) =>
        if status != JStr("finished") then Pending
        else
          match Index(job, "result")
          case Err(e) => Failed(e)
          case Ok(result) => Done(result)
  }

  /** n polls of the job. */
  function JobPolls(jobId: Json, n: nat): (r: seq<FaaSCall>)
    ensures |r| == n
    ensures forall k :: 0 <= k < n ==> r[k] == JobsGet(jobId)
  {
    if n == 0 then [] else [JobsGet(jobId)] + JobPolls(jobId, n - 1)
  }

  /** The reply to the k-th poll after `history`. */
  function PollReply(c: Client, history: seq<FaaSCall>, jobId: Json, k: nat): Reply
  {
    c.api(history + JobPolls(jobId, k), JobsGet(jobId))
  }

  /** The result of the polling loop (None as JNull when no poll finished), the
      calls made, and the number of polls. */
  datatype JobWait = JobWait(result: Result<Json>, history: seq<FaaSCall>, polls: nat)

  /** The loop of `wait_for_job_finished`: at most `left` polls, stopping at the
      first finished job. */
  function PollJob(c: Client, history: seq<FaaSCall>, jobId: Json, left: nat): (r: JobWait)
    ensures r.polls <= left
    ensures r.history == history + JobPolls(jobId, r.polls)
    ensures forall k :: 0 <= k && k + 1 < r.polls ==> Classify(jobId, PollReply(c, history, jobId, k)).Pending?
    ensures r.polls == 0 ==> left == 0 && r.result == Ok(JNull)
    ensures r.polls > 0 ==>
              var last := Classify(jobId, PollReply(c, history, jobId, r.polls - 1));
              && (last.Pending? ==> r.polls == left && r.result == Ok(JNull))
              && (last.Done? ==> r.result == Ok(last.result))
              && (last.Failed? ==> r.result == Err(last.error))
    decreases left
  {
    if left == 0 then JobWait(Ok(JNull), history, 0)
    else
      assert history + JobPolls(jobId, 0) == history;
      var next := history + [JobsGet(jobId)];
      match Classify(jobId, c.api(history, JobsGet(jobId)))
      case Failed(e) => JobWait(Err(e), next, 1)
      case Done(result) => JobWait(Ok(result), next, 1)
      case Pending =>
        var rest := PollJob(c, next, jobId, left - 1);
        forall k: nat | k <= rest.polls
          ensures next + JobPolls(jobId, k) == history + JobPolls(jobId, k + 1)
        {
          assert JobPolls(jobId, k + 1) == [JobsGet(jobId)] + JobPolls(jobId, k);
        }
        assert forall k :: 1 <= k <= rest.polls ==> PollReply(c, history, jobId, k) == PollReply(c, next, jobId, k - 1);
        JobWait(rest.result, rest.history, rest.polls + 1)
  }

  /** `'id' in result`, by the kind of the value. */
  function HasId(result: Json): (r: Result<bool>)
    ensures result.JObj? ==> r == Ok("id" in result.fields)
    ensures result.JNull? || result.JBool? || result.JInt? ==> r.Err?
  {
    match result
    case JObj(fields) => Ok("id" in fields)
    case JList(items) => Ok(JStr("id") in items)
    case JStr(text) => Ok(IsSubstring("id", text))
    case _ => Err(TypeError("argument is not iterable"))
  }

  /** `wait_for_job_finished`: poll until the job finishes, then insist on a
      non-empty result holding an 'id'. */
  function WaitForJobFinished(c: Client, history: seq<FaaSCall>, jobId: Json, attempts: nat): (r: (Result<Json>, seq<FaaSCall>))
    ensures |history| <= |r.1| <= |history| + attempts
    ensures r.0.Ok? ==> Truthy(r.0.value) && HasId(r.0.value) == Ok(true)
    ensures r.0.Ok? ==> var n := |r.1| - |history|;
                        n > 0 && Classify(jobId, PollReply(c, history, jobId, n - 1)) == Done(r.0.value)
    ensures attempts == 0 ==> r == (Err(APIError(500, RestoreFailed(JNull))), history)
  {
    if attempts == 0 then (Err(APIError(500, RestoreFailed(JNull))), history)
    else
      match Connect(c.credential)
      case Err(e) => (Err(e), history)
      case Ok(_) =>
        var w := PollJob(c, history, jobId, attempts);
        match w.result
        case Err(e) => (Err(e), w.history)
        case Ok(result) =>
          if !Truthy(result) then (Err(APIError(500, RestoreFailed(result))), w.history)
          else
            match HasId(result)
            case Err(e) => (Err(e), w.history)
            case Ok(has) =>
              if !has then (Err(APIError(500, RestoreFailed(result))), w.history)
              else (Ok(result), w.history)
  }

  /** A job that finishes at poll n stops the polling loop there: exactly
      n + 1 polls, ending with the finished job's result. */
  lemma {:induction false} JobStopsAtFirstFinished(c: Client, history: seq<FaaSCall>, jobId: Json, left: nat, n: nat)
    requires n < left
    requires forall k :: 0 <= k < n ==> Classify(jobId, PollReply(c, history, jobId, k)).Pending?
    requires Classify(jobId, PollReply(c, history, jobId, n)).Done?
    ensures PollJob(c, history, jobId, left)
              == JobWait(Ok(Classify(jobId, PollReply(c, history, jobId, n)).result),
                         history + JobPolls(jobId, n + 1), n + 1)
    decreases n
  {
    if n > 0 {
      var next := history + [JobsGet(jobId)];
      assert Classify(jobId, PollReply(c, history, jobId, 0)).Pending?;
      forall k: nat | k <= n
        ensures next + JobPolls(jobId, k) == history + JobPolls(jobId, k + 1)
      {
        assert JobPolls(jobId, k + 1) == [JobsGet(jobId)] + JobPolls(jobId, k);
      }
      forall k | 0 <= k < n - 1
        ensures Classify(jobId, PollReply(c, next, jobId, k)).Pending?
      {
        assert PollReply(c, next, jobId, k) == PollReply(c, history, jobId, k + 1);
      }
      assert PollReply(c, next, jobId, n - 1) == PollReply(c, history, jobId, n);
      JobStopsAtFirstFinished(c, next, jobId, left - 1, n - 1);
    }
  }

  /** A job that never finishes within the attempts ends in APIError 500 with
      an empty result, after exactly `attempts` polls. */
  lemma JobGivesUp(c: Client, history: seq<FaaSCall>, jobId: Json, attempts: nat)
    requires attempts > 0 && Connect(c.credential).Ok?
    requires forall k :: 0 <= k < attempts ==> Classify(jobId, PollReply(c, history, jobId, k)).Pending?
    ensures WaitForJobFinished(c, history, jobId, attempts)
              == (Err(APIError(500, RestoreFailed(JNull))), history + JobPolls(jobId, attempts))
  {
    var w := PollJob(c, history, jobId, attempts);
    assert Classify(jobId, PollReply(c, history, jobId, w.polls - 1)).Pending?;
  }

  /** With the default of 50 attempts, a job that never finishes is polled
      exactly 50 times before the restore failure. */
  lemma DefaultWaitGivesUp(c: Client, history: seq<FaaSCall>, jobId: Json)
    requires Connect(c.credential).Ok?
    requires forall k :: 0 <= k < JOB_ATTEMPTS ==> Classify(jobId, PollReply(c, history, jobId, k)).Pending?
    ensures var r := WaitForJobFinished(c, history, jobId, JOB_ATTEMPTS);
            && r.0 == Err(APIError(500, RestoreFailed(JNull)))
            && |r.1| == |history| + 50
  {
    JobGivesUp(c, history, jobId, JOB_ATTEMPTS);
  }

  /** A job that finishes at poll n with a non-empty result holding an 'id'
      is answered with that result, after exactly n + 1 polls. */
  lemma FinishedJobIsReturned(c: Client, history: seq<FaaSCall>, jobId: Json, attempts: nat, n: nat)
    requires n < attempts && Connect(c.credential).Ok?
    requires forall k :: 0 <= k < n ==> Classify(jobId, PollReply(c, history, jobId, k)).Pending?
    requires Classify(jobId, PollReply(c, history, jobId, n)).Done?
    requires var res := Classify(jobId, PollReply(c, history, jobId, n)).result;
             Truthy(res) && HasId(res) == Ok(true)
    ensures WaitForJobFinished(c, history, jobId, attempts)
              == (Ok(Classify(jobId, PollReply(c, history, jobId, n)).result), history + JobPolls(jobId, n + 1))
  {
    JobStopsAtFirstFinished(c, history, jobId, attempts, n);
  }

  /** A job that finishes at poll n with an empty result, or one without an
      'id', is the restore failure carrying that result, after n + 1 polls. */
  lemma UnidentifiedResultFails(c: Client, history: seq<FaaSCall>, jobId: Json, attempts: nat, n: nat)
    requires n < attempts && Connect(c.credential).Ok?
    requires forall k :: 0 <= k < n ==> Classify(jobId, PollReply(c, history, jobId, k)).Pending?
    requires Classify(jobId, PollReply(c, history, jobId, n)).Done?
    requires var res := Classify(jobId, PollReply(c, history, jobId, n)).result;
             !Truthy(res) || HasId(res) == Ok(false)
    ensures var res := Classify(jobId, PollReply(c, history, jobId, n)).result;
            WaitForJobFinished(c, history, jobId, attempts)
              == (Err(APIError(500, RestoreFailed(res))), history + JobPolls(jobId, n + 1))
  {
    JobStopsAtFirstFinished(c, history, jobId, attempts, n);
  }
}

=== FILE: gce_wait.dfy ===
/** Waiting on compute-cloud operations: one blocking wait call per zone
    operation, and a classifier that turns the finished operation into True or
    an exception. */
module GceWait {
  import opened Values

  /** `zoneOperations().wait(project, zone, operation)`. */
  datatype WaitCall = ZoneWait(project: Json, zone: Json, operation: Json)

  /** The cloud, as the operation resource (or the exception) a wait call
      returns after a history of calls. */
  type WaitApi = (seq<WaitCall>, WaitCall) -> Result<Json>

  /** `_check_operation_status` (its `get` calls need a dict): a truthy
      'error' fails the operation, even one that is DONE; without one, any
      status but 'DONE' fails it; otherwise True. */
  function CheckOperationStatus(operation: Json): (r: Result<bool>)
    ensures !operation.JObj? ==> r == Err(AttributeError("get"))
    ensures operation.JObj? ==>
              var error := LookupOr(operation.fields, "error", JNull);
              var status := LookupOr(operation.fields, "status", JNull);
              var kind := LookupOr(operation.fields, "operationType", JNull);
              && (r == Ok(true) <==> !Truthy(error) && status == JStr("DONE"))
              && (Truthy(error) <==> r == Err(OperationFailed(kind, error)))
              && (!Truthy(error) && status != JStr("DONE") <==> r == Err(OperationNotDone(kind, status)))
    ensures r.Ok? ==> r.value
  {
    match operation
    case JObj(fields) =>
      var error := LookupOr(fields, "error", JNull);
      var status := LookupOr(fields, "status", JNull);
      var kind := LookupOr(fields, "operationType", JNull);
      if Truthy(error) then Err(OperationFailed(kind, error))
      else if status != JStr("DONE") then Err(OperationNotDone(kind, status))
      else Ok(true)
    case _ => Err(AttributeError("get"))
  }

  /** `wait_zone_operation`: read the project, make exactly one wait call, and
      classify what it returns; there is no retry. A credential without a
      project fails before any call. */
  function WaitZoneOperation(api: WaitApi, history: seq<WaitCall>, credential: Result<map<string, Json>>,
                             zone: Json, operation: Json): (r: (Result<bool>, seq<WaitCall>))
    ensures r.1 == history || (|r.1| == |history| + 1 && r.1[..|history|] == history)
    ensures r.0.Ok? ==> credential.Ok? && "project" in credential.value
                        && var call := ZoneWait(credential.value["project"], zone, operation);
                           && r.1 == history + [call]
                           && api(history, call).Ok?
                           && CheckOperationStatus(api(history, call).value) == Ok(true)
    ensures credential.Ok? && "project" in credential.value ==>
              var call := ZoneWait(credential.value["project"], zone, operation);
              && r.1 == history + [call]
              && (api(history, call).Ok? ==> r.0 == CheckOperationStatus(api(history, call).value))
              && (api(history, call).Err? ==> r.0 == Err(api(history, call).error))
    ensures credential.Err? ==> r == (Err(credential.error), history)
    ensures credential.Ok? && "project" !in credential.value ==> r == (Err(KeyError("project")), history)
  {
    match credential
    case Err(e) => (Err(e), history)
    case Ok(content) =>
      match Lookup(content, "project")
      case Err(e) => (Err(e), history)
      case Ok(project) =>
        var call := ZoneWait(project, zone, operation);
        match api(history, call)
        case Err(e) => (Err(e), history + [call])
        case Ok(op) => (CheckOperationStatus(op), history + [call])
  }

  /** A zone operation still running when the wait returns is reported as not
      done after a single call: the wait is never repeated. */
  lemma RunningOperationIsNotRetried(api: WaitApi, history: seq<WaitCall>, content: map<string, Json>,
                                     zone: Json, operation: Json, fields: map<string, Json>)
    requires "project" in content
    requires api(history, ZoneWait(content["project"], zone, operation)) == Ok(JObj(fields))
    requires "error" !in fields && "status" in fields && fields["status"] == JStr("RUNNING")
    ensures var call := ZoneWait(content["project"], zone, operation);
            WaitZoneOperation(api, history, Ok(content), zone, operation)
              == (Err(OperationNotDone(LookupOr(fields, "operationType", JNull), JStr("RUNNING"))), history + [call])
  {
  }

  /** `wait_global_operation`: does nothing and answers None. */
  function WaitGlobalOperation(history: seq<WaitCall>): (r: (Option<bool>, seq<WaitCall>))
    ensures r.0.None? && r.1 == history
  {
    (None, history)
  }
}

=== FILE: k8s.dfy ===
/** The Kubernetes provider: a volume is a persistent volume claim named by
    the caller, so the stored Volume records only the claim's name; snapshots
    are delegated to the client and always reported available. */
module ProviderK8s {
  import opened Values
  import opened Models

  /** The cluster calls the provider makes. The claim body comes from a
      template that is not part of this model, so a claim is described by the
      values the template is given. */
  datatype K8sCall =
    | CreateClaim(namespace: Json, storageName: Json, storageSizeGb: int)
    | DeleteClaim(name: Json, namespace: Json)
    | CreateSnapshot(volume: Volume)
    | DeleteSnapshot(volumeId: Option<string>, snapshot: Snapshot)

  /** The cluster, as the reply (or the exception) it gives to a call after a
      history of calls. */
  type K8sApi = (seq<K8sCall>, K8sCall) -> Result<Json>

  /** The namespace a call targets: the keyword argument, by default 'default'. */
  function Namespace(kw: map<string, Json>): (r: Json)
    ensures "namespace" !in kw ==> r == JStr("default")
    ensures "namespace" in kw ==> r == kw["namespace"]
  {
    LookupOr(kw, "namespace", JStr("default"))
  }

  /** The outcome of `create_volume`: the volume or the exception, the stored
      volumes afterwards and the calls made. */
  datatype Created = Created(volume: Result<Volume>, volumes: seq<Volume>, calls: seq<K8sCall>)

  /** `create_volume`: the size is converted with `int`, the group is linked,
      the claim is requested, and only then is the volume filled in and saved
      with the claim's name and empty resource, path and owner. */
  function CreateVolume(volumes: seq<Volume>, api: K8sApi, history: seq<K8sCall>,
                        group: string, sizeKb: Json, kw: map<string, Json>, freshId: string): (r: Created)
    ensures PyInt(sizeKb).Err? ==> r == Created(Err(PyInt(sizeKb).error), volumes, history)
    ensures PyInt(sizeKb).Ok? ==>
              var name := LookupOr(kw, "volume_name", JNull);
              r.calls == history + [CreateClaim(Namespace(kw), name, ConvertKbToGb(PyInt(sizeKb).value))]
    ensures r.volume.Err? ==> r.volumes == volumes
    ensures r.volume.Ok? ==>
              var v := r.volume.value;
              && r.volumes == volumes + [v]
              && v.id == Some(freshId)
              && v.sizeKb == Some(PyInt(sizeKb).value)
              && v.group == Some(group)
              && OptStr(v.identifier) == LookupOr(kw, "volume_name", JNull)
              && v.resourceId == Some("") && v.path == Some("") && v.ownerAddress == Some("")
              && api(history, r.calls[|history|]).Ok?
    ensures r.volume.Ok? <==>
              && PyInt(sizeKb).Ok?
              && api(history, r.calls[|history|]).Ok?
              && LookupOr(kw, "volume_name", JNull).JStr?
              && |group| <= 50
  {
    match PyInt(sizeKb)
    case Err(e) => Created(Err(e), volumes, history)
    case Ok(kb) =>
      var v := SetGroup(NewVolume.(sizeKb := Some(kb)), volumes, group);
      var name := LookupOr(kw, "volume_name", JNull);
      var call := CreateClaim(Namespace(kw), name, ConvertKbToGb(kb));
      var calls := history + [call];
      match api(history, call)
      case Err(e) => Created(Err(e), volumes, calls)
      case Ok(_) =>
        var filled := v.(identifier := StrOfJson(name), resourceId := Some(""), path := Some(""), ownerAddress := Some(""));
        match SaveNewVolume(volumes, filled, freshId)
        case Err(e) => Created(Err(e), volumes, calls)
        case Ok((after, saved)) =>
          assert OptStr(saved.identifier) == name;
          Created(Ok(saved), after, calls)
  }

  /** The resource a group sibling would lend is overwritten: even when the
      group already has a stored Volume with a resource, the new Volume's
      resource is empty. */
  lemma CreatedResourceIsAlwaysEmpty(volumes: seq<Volume>, api: K8sApi, history: seq<K8sCall>,
                                     group: string, sizeKb: Json, kw: map<string, Json>, freshId: string, k: nat)
    requires k < |volumes| && InGroup(volumes[k], group) && volumes[k].resourceId != Some("")
    requires CreateVolume(volumes, api, history, group, sizeKb, kw, freshId).volume.Ok?
    ensures CreateVolume(volumes, api, history, group, sizeKb, kw, freshId).volume.value.resourceId
              != volumes[k].resourceId
  {
  }

  /** A claim the cluster refuses leaves the store as it was. */
  lemma RefusedClaimStoresNothing(volumes: seq<Volume>, api: K8sApi, history: seq<K8sCall>,
                                  group: string, kb: int, kw: map<string, Json>, freshId: string)
    requires api(history, CreateClaim(Namespace(kw), LookupOr(kw, "volume_name", JNull), ConvertKbToGb(kb))).Err?
    ensures var r := CreateVolume(volumes, api, history, group, JInt(kb), kw, freshId);
            r.volume.Err? && r.volumes == volumes
  {
  }

  /** A whole number of gigabytes given as decimal text asks for a claim of
      exactly that many gigabytes. */
  lemma ClaimSizeOfDecimalText(volumes: seq<Volume>, api: K8sApi, history: seq<K8sCall>,
                               group: string, gb: nat, kw: map<string, Json>, freshId: string)
    ensures var r := CreateVolume(volumes, api, history, group, JStr(NatToString(gb * KB_PER_GB)), kw, freshId);
            r.calls[|history|].storageSizeGb == gb
  {
    PyIntOfDecimalText(gb * KB_PER_GB);
    ConvertExactOnWholeGb(gb);
  }

  /** `_delete_volume`: delete the claim named by the identifier. */
  function DeleteVolume(api: K8sApi, history: seq<K8sCall>, v: Volume, kw: map<string, Json>): (r: (Result<()>, seq<K8sCall>))
    ensures |r.1| == |history| + 1 && r.1[..|history|] == history
    ensures r.1[|history|].DeleteClaim? && r.1[|history|].name == OptStr(v.identifier)
    ensures r.1[|history|].namespace == Namespace(kw)
    ensures "namespace" !in kw ==> r.1[|history|].namespace == JStr("default")
    ensures r.0.Ok? <==> api(history, r.1[|history|]).Ok?
  {
    var call := DeleteClaim(OptStr(v.identifier), Namespace(kw));
    (match api(history, call) case Err(e) => Err(e) case Ok(_) => Ok(()), history + [call])
  }

  /** `_get_snapshot_status`: every snapshot reports 'available', whatever it is. */
  function SnapshotStatus(s: Snapshot): (r: string)
    ensures r == "available"
  {
    "available"
  }

  /** `_take_snapshot`: the client's new snapshot gives the identifier (as
      text) and the description (its name). */
  function TakeSnapshot(api: K8sApi, history: seq<K8sCall>, v: Volume, s: Snapshot): (r: (Result<Snapshot>, seq<K8sCall>))
    ensures r.1 == history + [CreateSnapshot(v)]
    ensures r.0.Ok? ==>
              var reply := api(history, CreateSnapshot(v));
              && reply.Ok?
              && Index(reply.value, "snapshot").Ok?
              && var inner := Index(reply.value, "snapshot").value;
              && Index(inner, "id").Ok? && r.0.value.identifier.Some?
              && ScalarStr(Index(inner, "id").value) == Ok(r.0.value.identifier.value)
              && Index(inner, "name").Ok? && r.0.value.description == StrOfJson(Index(inner, "name").value)
              && r.0.value == s.(identifier := r.0.value.identifier, description := r.0.value.description)
    ensures r.0.Ok? <==>
              var reply := api(history, CreateSnapshot(v));
              && reply.Ok?
              && Index(reply.value, "snapshot").Ok?
              && var inner := Index(reply.value, "snapshot").value;
              && Index(inner, "id").Ok? && ScalarStr(Index(inner, "id").value).Ok?
              && Index(inner, "name").Ok?
  {
    var call := CreateSnapshot(v);
    var calls := history + [call];
    match api(history, call)
    case Err(e) => (Err(e), calls)
    case Ok(created) =>
      match Index(created, "snapshot")
      case Err(e) => (Err(e), calls)
      case Ok(inner) =>
        match Index(inner, "id")
        case Err(e) => (Err(e), calls)
        case Ok(id) =>
          match ScalarStr(id)
          case Err(e) => (Err(e), calls)
          case Ok(text) =>
            match Index(inner, "name")
            case Err(e) => (Err(e), calls)
            case Ok(name) =>
              (Ok(s.(identifier := Some(text), description := StrOfJson(name))), calls)
  }

  /** The reply the client documents, a dict whose `snapshot` holds an integer
      id and a string name, is always taken: the id becomes its decimal text
      and the name the description. */
  lemma WellFormedReplyIsTaken(api: K8sApi, history: seq<K8sCall>, v: Volume, s: Snapshot, i: int, name: string)
    requires api(history, CreateSnapshot(v))
               == Ok(JObj(map["snapshot" := JObj(map["id" := JInt(i), "name" := JStr(name)])]))
    ensures TakeSnapshot(api, history, v, s)
              == (Ok(s.(identifier := Some(IntToString(i)), description := Some(name))), history + [CreateSnapshot(v)])
  {
  }

  /** `_remove_snapshot`: ask the client to delete it, then answer True. */
  function RemoveSnapshot(api: K8sApi, history: seq<K8sCall>, s: Snapshot): (r: (Result<bool>, seq<K8sCall>))
    ensures r.1 == history + [DeleteSnapshot(s.volume, s)]
    ensures r.0.Ok? <==> api(history, DeleteSnapshot(s.volume, s)).Ok?
    ensures r.0.Ok? ==> r.0.value
  {
    var call := DeleteSnapshot(s.volume, s);
    match api(history, call)
    case Err(e) => (Err(e), history + [call])
    case Ok(_) => (Ok(true), history + [call])
  }
}

=== FILE: memo.dfy ===
/** Lazily built, cached attributes: `if not self._x: self._x = self.build_x()`
    followed by `return self._x`. Used for a provider's client and credential
    and for a credential's content. */
module Memo {
  import opened Values

  /** What one read of a lazy attribute yields: the value (or the exception the
      builder raised), the cache cell afterwards, and whether the builder ran. */
  datatype Forced<T> = Forced(value: Result<T>, cell: Option<T>, built: bool)

  /** The cell holds a value Python treats as true, so it is not rebuilt. */
  predicate Cached<T>(cell: Option<T>, truthy: T -> bool)
  {
    cell.Some? && truthy(cell.value)
  }

  /** One read of the attribute. `build` is what the builder would return or raise. */
  function Force<T>(cell: Option<T>, truthy: T -> bool, build: Result<T>): (r: Forced<T>)
    ensures Cached(cell, truthy) ==> r == Forced(Ok(cell.value), cell, false)
    ensures !Cached(cell, truthy) ==> r.built && r.value == build
    ensures !Cached(cell, truthy) && build.Ok? ==> r.cell == Some(build.value)
    ensures build.Err? ==> r.cell == cell
  {
    if Cached(cell, truthy) then Forced(Ok(cell.value), cell, false)
    else
      match build
      case Ok(v) => Forced(Ok(v), Some(v), true)
      case Err(e) => Forced(Err(e), cell, true)
  }

  /** A second read after a successful, truthy first build does not call the
      builder again and returns the first value, whatever the builder would now
      produce. */
  lemma ForceBuildsOnce<T>(cell: Option<T>, truthy: T -> bool, first: Result<T>, later: Result<T>)
    requires first.Ok? && truthy(first.value)
    ensures var one := Force(cell, truthy, first);
            var two := Force(one.cell, truthy, later);
            !two.built && two.value == one.value && two.cell == one.cell
  {
  }
}

=== FILE: models.dfy ===
/** The stored entities: Volume and Snapshot documents, the Volume helpers
    (group linkage, sibling lookup, JSON view, kb-to-GB conversion) and the
    cascade from a Volume to its Snapshots. */
module Models {
  import opened Values

  /** Kilobytes per gigabyte as the source divides them: 1024 * 1024. */
  const KB_PER_GB: int := 1048576

  /** A Volume document. `id` is the primary key Mongo assigns on the first save. */
  datatype Volume = Volume(
    id: Option<string>,
    sizeKb: Option<int>,
    group: Option<string>,
    resourceId: Option<string>,
    identifier: Option<string>,
    path: Option<string>,
    ownerAddress: Option<string>,
    zone: Option<string>,
    vmName: Option<string>,
    labels: map<string, Json>,
    diskOfferingType: Option<string>)

  /** `Volume()`: every field unset, no labels. */
  const NewVolume: Volume :=
    Volume(None, None, None, None, None, None, None, None, None, map[], None)

  /** A Snapshot document; `volume` is the primary key of the owning Volume. */
  datatype Snapshot = Snapshot(
    id: Option<string>,
    volume: Option<string>,
    identifier: Option<string>,
    description: Option<string>,
    labels: map<string, Json>,
    sizeBytes: Option<int>,
    createdAt: Option<string>)

  /** The two collections the entity model touches. */
  datatype Db = Db(volumes: seq<Volume>, snapshots: seq<Snapshot>)

  predicate FitsIn(f: Option<string>, maxLength: nat)
  {
    f.None? || |f.value| <= maxLength
  }

  /** The declared field constraints of Volume: six required fields and the
      string length limits. */
  predicate Storable(v: Volume)
  {
    && v.sizeKb.Some? && v.group.Some? && v.resourceId.Some?
    && v.identifier.Some? && v.path.Some? && v.ownerAddress.Some?
    && FitsIn(v.group, 50) && FitsIn(v.resourceId, 255) && FitsIn(v.path, 1000)
    && FitsIn(v.ownerAddress, 20) && FitsIn(v.zone, 200) && FitsIn(v.vmName, 200)
    && FitsIn(v.diskOfferingType, 255)
  }

  /** The first field, in declaration order, that save-time validation rejects. */
  function InvalidVolumeField(v: Volume): (r: Option<string>)
    ensures r.None? <==> Storable(v)
    ensures r.Some? ==> r.value in {"size_kb", "group", "resource_id", "identifier", "path",
                                    "owner_address", "zone", "vm_name", "disk_offering_type"}
  {
    if v.sizeKb.None? then Some("size_kb")
    else if v.group.None? || !FitsIn(v.group, 50) then Some("group")
    else if v.resourceId.None? || !FitsIn(v.resourceId, 255) then Some("resource_id")
    else if v.identifier.None? then Some("identifier")
    else if v.path.None? || !FitsIn(v.path, 1000) then Some("path")
    else if v.ownerAddress.None? || !FitsIn(v.ownerAddress, 20) then Some("owner_address")
    else if !FitsIn(v.zone, 200) then Some("zone")
    else if !FitsIn(v.vmName, 200) then Some("vm_name")
    else if !FitsIn(v.diskOfferingType, 255) then Some("disk_offering_type")
    else None
  }

  /** `volume.save()` of a new Volume: validation, then an insert under the key
      Mongo generates (`freshId`). */
  function SaveNewVolume(volumes: seq<Volume>, v: Volume, freshId: string): (r: Result<(seq<Volume>, Volume)>)
    ensures r.Ok? <==> Storable(v)
    ensures r.Err? ==> r.error.ValidationError?
    ensures r.Ok? ==> r.value.1 == v.(id := Some(freshId)) && r.value.0 == volumes + [r.value.1]
  {
    match InvalidVolumeField(v)
    case Some(f) => Err(ValidationError(f))
    case None => var saved := v.(id := Some(freshId)); Ok((volumes + [saved], saved))
  }

  predicate InGroup(v: Volume, g: string)
  {
    v.group == Some(g)
  }

  /** `set_group`: record the group and, when a stored Volume already belongs to
      it, take over the `resource_id` of the first such sibling. */
  function SetGroup(v: Volume, volumes: seq<Volume>, g: string): (r: Volume)
    ensures r.group == Some(g)
    ensures (exists k :: 0 <= k < |volumes| && InGroup(volumes[k], g)) ==>
              exists k :: 0 <= k < |volumes| && InGroup(volumes[k], g)
                && (forall j :: 0 <= j < k ==> !InGroup(volumes[j], g))
                && r.resourceId == volumes[k].resourceId
    ensures (forall k :: 0 <= k < |volumes| ==> !InGroup(volumes[k], g)) ==> r.resourceId == v.resourceId
    ensures r == v.(group := Some(g), resourceId := r.resourceId)
  {
    match FirstIndex(volumes, (w: Volume) => InGroup(w, g))
    case None => v.(group := Some(g))
    case Some(k) => v.(group := Some(g), resourceId := volumes[k].resourceId)
  }

  /** `pairs`: the stored Volumes of this Volume's group. */
  function Pairs(v: Volume, volumes: seq<Volume>): (r: seq<Volume>)
    ensures forall w :: w in r <==> w in volumes && w.group == v.group
  {
    Filter(volumes, (w: Volume) => w.group == v.group)
  }

  function OptStr(f: Option<string>): Json
  {
    match f
    case None => JNull
    case Some(s) => JStr(s)
  }

  function OptInt(f: Option<int>): Json
  {
    match f
    case None => JNull
    case Some(i) => JInt(i)
  }

  /** The inverse of OptStr on the values it produces. */
  function StrOfJson(j: Json): Option<string>
  {
    if j.JStr? then Some(j.s) else None
  }

  function IntOfJson(j: Json): Option<int>
  {
    if j.JInt? then Some(j.i) else None
  }

  /** `get_json`: the six public fields of a Volume. */
  function GetJson(v: Volume): (r: map<string, Json>)
    ensures r.Keys == {"size_kb", "group", "resource_id", "identifier", "path", "owner_address"}
    ensures "zone" !in r && "vm_name" !in r && "labels" !in r && "disk_offering_type" !in r
  {
    map["size_kb" := OptInt(v.sizeKb), "group" := OptStr(v.group),
        "resource_id" := OptStr(v.resourceId), "identifier" := OptStr(v.identifier),
        "path" := OptStr(v.path), "owner_address" := OptStr(v.ownerAddress)]
  }

  /** Reads the six public fields back out of a JSON view. */
  function VolumeOfJson(m: map<string, Json>): Volume
  {
    NewVolume.(
      sizeKb := IntOfJson(LookupOr(m, "size_kb", JNull)),
      group := StrOfJson(LookupOr(m, "group", JNull)),
      resourceId := StrOfJson(LookupOr(m, "resource_id", JNull)),
      identifier := StrOfJson(LookupOr(m, "identifier", JNull)),
      path := StrOfJson(LookupOr(m, "path", JNull)),
      ownerAddress := StrOfJson(LookupOr(m, "owner_address", JNull)))
  }

  /** The JSON view keeps exactly the six public fields: reading it back gives the
      Volume with its key, placement, labels and offering cleared. */
  lemma GetJsonRoundTrip(v: Volume)
    ensures VolumeOfJson(GetJson(v)) ==
            v.(id := None, zone := None, vmName := None, labels := map[], diskOfferingType := None)
  {
    var m := GetJson(v);
    assert StrOfJson(OptStr(v.group)) == v.group;
    assert StrOfJson(OptStr(v.resourceId)) == v.resourceId;
    assert StrOfJson(OptStr(v.identifier)) == v.identifier;
    assert StrOfJson(OptStr(v.path)) == v.path;
    assert StrOfJson(OptStr(v.ownerAddress)) == v.ownerAddress;
    assert IntOfJson(OptInt(v.sizeKb)) == v.sizeKb;
  }

  function Abs(x: int): nat
  {
    if x < 0 then -x else x
  }

  /** n / d rounded to the nearest integer, ties to the even one (Python's
      `round` on the exact quotient). */
  function RoundHalfEven(n: int, d: int): (r: int)
    requires d > 0
    ensures 2 * Abs(n - r * d) <= d
    ensures 2 * Abs(n - r * d) == d ==> r % 2 == 0
  {
    var q := n / d;
    var rem := n % d;
    assert n == q * d + rem;
    assert (q + 1) * d == q * d + d;
    if 2 * rem < d then q
    else if 2 * rem > d then q + 1
    else if q % 2 == 0 then q
    else q + 1
  }

  /** `convert_kb_to_gb`: kilobytes to whole gigabytes. */
  function ConvertKbToGb(sizeKb: int): (r: int)
    ensures 2 * Abs(sizeKb - r * KB_PER_GB) <= KB_PER_GB
    ensures 2 * Abs(sizeKb - r * KB_PER_GB) == KB_PER_GB ==> r % 2 == 0
  {
    RoundHalfEven(sizeKb, KB_PER_GB)
  }

  /** The TypeError of `float(None)`. */
  const FLOAT_NONE_MESSAGE: string := "float() argument must be a number, not 'NoneType'"

  /** `size_gb`; an unset size makes `float(None)` raise. */
  function SizeGb(v: Volume): (r: Result<int>)
    ensures r.Ok? <==> v.sizeKb.Some?
    ensures r.Ok? ==> r.value == ConvertKbToGb(v.sizeKb.value)
  {
    match v.sizeKb
    case None => Err(TypeError(FLOAT_NONE_MESSAGE))
    case Some(kb) => Ok(ConvertKbToGb(kb))
  }

  /** The two rounding conditions determine the result: nothing else is the
      nearest integer with ties to even. */
  lemma RoundHalfEvenUnique(n: int, d: int, r': int)
    requires d > 0
    requires 2 * Abs(n - r' * d) <= d
    requires 2 * Abs(n - r' * d) == d ==> r' % 2 == 0
    ensures r' == RoundHalfEven(n, d)
  {
    NearestEvenUnique(n, d, RoundHalfEven(n, d), r');
  }

  /** Two integers both nearest to n / d with ties to even are equal. */
  lemma NearestEvenUnique(n: int, d: int, lo: int, hi: int)
    requires d > 0
    requires 2 * Abs(n - lo * d) <= d && (2 * Abs(n - lo * d) == d ==> lo % 2 == 0)
    requires 2 * Abs(n - hi * d) <= d && (2 * Abs(n - hi * d) == d ==> hi % 2 == 0)
    ensures lo == hi
  {
    if lo != hi {
      var a, b := if lo < hi then lo else hi, if lo < hi then hi else lo;
      MulDistributes(b, a, d);
      MulMonotone(b - a, 1, d);
      if b - a >= 2 { MulMonotone(b - a, 2, d); }
      ErrorsOneApart(n - a * d, n - b * d, b - a, d, (b - a) * d);
    }
  }

  /** The linear core of uniqueness: two errors at most d/2 in size that differ
      by a positive multiple k*d of d are a tie, d/2 and -d/2, one step apart. */
  lemma ErrorsOneApart(e1: int, e2: int, k: int, d: int, kd: int)
    requires d > 0 && k >= 1 && kd >= d && (k >= 2 ==> kd >= 2 * d)
    requires e1 - e2 == kd
    requires 2 * Abs(e1) <= d && 2 * Abs(e2) <= d
    ensures k == 1 && 2 * Abs(e1) == d && 2 * Abs(e2) == d
  {
  }

  lemma MulMonotone(a: int, b: int, d: int)
    requires a >= b && d > 0
    ensures a * d >= b * d
  {
  }

  lemma MulDistributes(a: int, b: int, d: int)
    ensures a * d - b * d == (a - b) * d
  {
  }

  /** The conversion is exact on whole gigabytes. */
  lemma ConvertExactOnWholeGb(gb: int)
    ensures ConvertKbToGb(gb * KB_PER_GB) == gb
  {
    RoundHalfEvenUnique(gb * KB_PER_GB, KB_PER_GB, gb);
  }

  /** Half a gigabyte rounds down to 0 and one and a half up to 2 (ties to even). */
  lemma ConvertTiesToEven()
    ensures ConvertKbToGb(524288) == 0
    ensures ConvertKbToGb(1572864) == 2
  {
    RoundHalfEvenUnique(524288, KB_PER_GB, 0);
    RoundHalfEvenUnique(1572864, KB_PER_GB, 2);
  }

  /** A larger size never converts to fewer gigabytes. */
  lemma ConvertMonotone(a: int, b: int)
    requires a <= b
    ensures ConvertKbToGb(a) <= ConvertKbToGb(b)
  {
  }

  /** `snapshots`: the Snapshots that reference this Volume. */
  function Snapshots(v: Volume, snapshots: seq<Snapshot>): (r: seq<Snapshot>)
    ensures forall s :: s in r <==> s in snapshots && s.volume == v.id
  {
    Filter(snapshots, (s: Snapshot) => s.volume == v.id)
  }

  /** Deleting a Volume by key: the document goes, and so does every Snapshot
      that references it (the reverse-delete rule CASCADE). */
  function DeleteVolume(db: Db, id: string): (r: Db)
    ensures forall v :: v in r.volumes <==> v in db.volumes && v.id != Some(id)
    ensures forall s :: s in r.snapshots <==> s in db.snapshots && s.volume != Some(id)
  {
    Db(Filter(db.volumes, (v: Volume) => v.id != Some(id)),
       Filter(db.snapshots, (s: Snapshot) => s.volume != Some(id)))
  }

  /** After the cascade the deleted Volume has no Snapshots left, and every other
      Volume keeps exactly the Snapshots it had. */
  lemma CascadeLeavesNoSnapshots(db: Db, v: Volume, w: Volume)
    requires v.id.Some?
    requires w.id != v.id
    ensures Snapshots(v, DeleteVolume(db, v.id.value).snapshots) == []
    ensures forall s :: s in Snapshots(w, DeleteVolume(db, v.id.value).snapshots) <==> s in Snapshots(w, db.snapshots)
  {
  }

  /** `Snapshot.to_json`: the description is reported under 'path'. */
  function SnapshotToJson(s: Snapshot): (r: map<string, Json>)
    ensures r.Keys == {"id", "identifier", "path", "volume", "size_bytes"}
    ensures r["path"] == OptStr(s.description)
    ensures "description" !in r
  {
    map["id" := OptStr(s.id), "identifier" := OptStr(s.identifier),
        "path" := OptStr(s.description), "volume" := OptStr(s.volume),
        "size_bytes" := OptInt(s.sizeBytes)]
  }
}

=== FILE: providers.dfy ===
/** The provider base class (memoised client and credential, the
    `credential_add` protocol, the abstract hooks) and the registry that maps a
    provider name to its adapter class. */
module Providers {
  import opened Values
  import Memo
  import opened Credentials
  import CredentialsAws
  import CredentialsGce
  import CredentialsFaaS
  import CredentialsK8s

  /** `ProviderBase` itself and its four adapter subclasses. */
  datatype ProviderKind = Base | Aws | Gce | FaaS | K8s

  /** `get_provider()`: the adapter's provider name; abstract on the base. */
  function GetProvider(k: ProviderKind): (r: Result<string>)
    ensures r.Err? <==> k == Base
    ensures r.Err? ==> r.error.NotImplementedError?
  {
    match k
    case Base => Err(NotImplementedError(""))
    case Aws => Ok("ebs")
    case Gce => Ok("gce")
    case FaaS => Ok("faas")
    case K8s => Ok("k8s")
  }

  /** No two adapters share a provider name. */
  lemma ProviderNamesDistinct(a: ProviderKind, b: ProviderKind)
    requires a != Base && b != Base && a != b
    ensures GetProvider(a).value != GetProvider(b).value
  {
  }

  /** `get_credential_add().valid_fields`: the required-field list of the
      adapter's credential class; the base raises before any list exists. */
  function ValidFields(k: ProviderKind): (r: Result<seq<string>>)
    ensures r.Err? <==> k == Base
    ensures r.Ok? ==> Distinct(r.value)
  {
    match k
    case Base => Err(NotImplementedError(""))
    case Aws => Ok(CredentialsAws.AwsFields)
    case Gce => Ok(CredentialsGce.GceFields)
    case FaaS => Ok(CredentialsFaaS.FaaSFields)
    case K8s => Ok(CredentialsK8s.K8sFields)
  }

  /** A provider object: its class, its environment and the two lazy caches. */
  datatype ProviderState<C> = ProviderState(
    kind: ProviderKind, environment: string, client: Option<C>, credential: Option<CredentialBase>)

  /** `ProviderBase(environment)`: both caches empty. */
  function NewProvider<C>(kind: ProviderKind, environment: string): ProviderState<C>
  {
    ProviderState(kind, environment, None, None)
  }

  /** `build_credential()`: an empty-cached credential keyed by the provider name. */
  function BuildCredential(kind: ProviderKind, environment: string): (r: Result<CredentialBase>)
    ensures r.Err? <==> kind == Base
    ensures r.Ok? ==> r.value == CredentialBase(GetProvider(kind).value, environment, None)
  {
    match GetProvider(kind)
    case Err(e) => Err(e)
    case Ok(name) => Ok(CredentialBase(name, environment, None))
  }

  /** The `client` property. `build` is what `build_client()` returns or raises;
      `truthy` is Python truthiness of a client object. */
  function Client<C>(p: ProviderState<C>, truthy: C -> bool, build: Result<C>): (r: (Result<C>, ProviderState<C>, bool))
    ensures Memo.Cached(p.client, truthy) ==> r == (Ok(p.client.value), p, false)
    ensures !Memo.Cached(p.client, truthy) ==> r.0 == build && r.2
    ensures r.1 == p.(client := r.1.client)
  {
    var f := Memo.Force(p.client, truthy, build);
    (f.value, p.(client := f.cell), f.built)
  }

  /** The `credential` property: built once, then cached (credential objects are
      always truthy). */
  function Credential<C>(p: ProviderState<C>): (r: (Result<CredentialBase>, ProviderState<C>, bool))
    ensures p.credential.Some? ==> r == (Ok(p.credential.value), p, false)
    ensures p.credential.None? ==> r.0 == BuildCredential(p.kind, p.environment) && r.2
    ensures r.1 == p.(credential := r.1.credential)
  {
    var f := Memo.Force(p.credential, (c: CredentialBase) => true, BuildCredential(p.kind, p.environment));
    (f.value, p.(credential := f.cell), f.built)
  }

  /** After a successful first read of `client`, a second read calls no builder
      and returns the same client. */
  lemma ClientBuiltOnce<C>(p: ProviderState<C>, truthy: C -> bool, first: Result<C>, later: Result<C>)
    requires p.client.None? && first.Ok? && truthy(first.value)
    ensures var one := Client(p, truthy, first);
            var two := Client(one.1, truthy, later);
            one.2 && !two.2 && two.0 == one.0 == first
  {
    Memo.ForceBuildsOnce(p.client, truthy, first, later);
  }

  /** `credential` is likewise built on the first read only. */
  lemma CredentialBuiltOnce<C>(p: ProviderState<C>)
    requires p.credential.None? && p.kind != Base
    ensures var one := Credential(p);
            var two := Credential(one.1);
            one.2 && !two.2 && two.0 == one.0
  {
  }

  /** `credential_add`'s answer: `(True, id)` or `(False, error)`. */
  datatype AddResult = AddResult(ok: bool, info: string)

  /** `credential_add`, with the two defects listed under Findings corrected:
      accepted content is saved, and success reports the saved document's id.
      `saveError` is the text of the exception `save` raises, if it raises. */
  method CredentialAdd(kind: ProviderKind, environment: string, content: map<string, Json>,
                       coll: Collection, saveError: Option<string>, freshId: string)
    returns (r: Result<AddResult>, after: Collection)
    ensures kind == Base ==> r.Err? && after == coll
    ensures kind != Base && !Accepts(ValidFields(kind).value, content) ==>
              r == Ok(AddResult(false, RequiredMessage(ValidFields(kind).value))) && after == coll
    ensures kind != Base && Accepts(ValidFields(kind).value, content) && saveError.Some? ==>
              r == Ok(AddResult(false, saveError.value)) && after == coll
    ensures kind != Base && Accepts(ValidFields(kind).value, content) && saveError.None? ==>
              var s := Save(coll, GetProvider(kind).value, environment, content, freshId);
              r == Ok(AddResult(true, s.doc.id)) && after == s.coll
  {
    if kind == Base {
      return Err(NotImplementedError("")), coll;
    }
    var provider := GetProvider(kind).value;
    var verdict := IsValid(ValidFields(kind), content);
    if !verdict.value.valid {
      return Ok(AddResult(false, verdict.value.error)), coll;
    }
    if saveError.Some? {
      return Ok(AddResult(false, saveError.value)), coll;
    }
    var saved := Save(coll, provider, environment, content, freshId);
    return Ok(AddResult(true, saved.doc.id)), saved.coll;
  }

  /** The TypeError of unpacking None into two names. */
  const UNPACK_NONE_MESSAGE: string := "cannot unpack non-iterable NoneType object"

  /** `credential_add` exactly as written: `is_valid` returns None on accepted
      content, and unpacking None raises TypeError before `save` runs. */
  function CredentialAddAsWritten(kind: ProviderKind, environment: string, content: map<string, Json>,
                                  coll: Collection, saveError: Option<string>, freshId: string)
    : (r: (Result<AddResult>, Collection))
    ensures r.1 == coll
    ensures kind != Base && Accepts(ValidFields(kind).value, content) ==> r.0.Err? && r.0.error.TypeError?
  {
    if kind == Base then (Err(NotImplementedError("")), coll)
    else
      match IsValidAsWritten(ValidFields(kind), content)
      case Err(e) => (Err(e), coll)
      case Ok(None) => (Err(TypeError(UNPACK_NONE_MESSAGE)), coll)
      case Ok(Some(v)) => (Ok(AddResult(v.valid, v.error)), coll)
  }

  /** Content that passes validation is never stored by the code as written:
      an AWS credential submission with exactly the five fields raises. */
  lemma ValidContentNeverSavedAsWritten(environment: string, content: map<string, Json>,
                                        coll: Collection, freshId: string)
    requires content.Keys == {"access_id", "secret_key", "region", "ebs_type", "device"}
    ensures CredentialAddAsWritten(Aws, environment, content, coll, None, freshId)
              == (Err(TypeError(UNPACK_NONE_MESSAGE)), coll)
  {
    CredentialsAws.AwsValidIffExactKeys(content);
  }

  /** `insert.get('_id')` as written: `save` returns what `find_one_and_update`
      returns, the document BEFORE the update, which is None on an insert. */
  function SavedIdAsWritten(s: Saved): (r: Result<string>)
    ensures s.before.None? ==> r.Err? && r.error.AttributeError?
    ensures s.before.Some? ==> r == Ok(s.before.value.id)
  {
    match s.before
    case None => Err(AttributeError("get"))
    case Some(d) => Ok(d.id)
  }

  /** The first credential for a (provider, environment) makes the as-written id
      lookup raise, while the corrected result is the new document's id, the one
      `get_content` then finds. */
  lemma FirstSaveIdAsWrittenFails(coll: Collection, provider: string, environment: string,
                                  content: map<string, Json>, freshId: string)
    requires forall k :: 0 <= k < |coll| ==> !Matches(coll[k], KeyOf(provider, environment))
    requires "provider" !in content && "environment" !in content
    ensures var s := Save(coll, provider, environment, content, freshId);
            && SavedIdAsWritten(s).Err?
            && s.doc.id == freshId
            && GetContent(s.coll, provider, environment) == Ok(s.doc)
  {
    SaveThenGetContent(coll, provider, environment, content, freshId);
  }

  /** An updated document keeps its `_id`, so on an update the as-written and the
      corrected id agree. */
  lemma UpdateIdsAgree(coll: Collection, provider: string, environment: string,
                       content: map<string, Json>, freshId: string)
    requires exists k :: 0 <= k < |coll| && Matches(coll[k], KeyOf(provider, environment))
    ensures var s := Save(coll, provider, environment, content, freshId);
            SavedIdAsWritten(s) == Ok(s.doc.id)
  {
  }

  /** The classes `ProviderBase.__subclasses__()` lists: the package imports only
      the FaaS adapter (the other adapter modules import a `CommandsBase` that the
      base module does not define). */
  const Registered: seq<ProviderKind> := [FaaS]

  /** `registry[i]` is the first class of `registry` named `name`, and every
      class before it has a name. */
  predicate FirstNamedAt(registry: seq<ProviderKind>, i: int, name: string)
  {
    && 0 <= i < |registry|
    && GetProvider(registry[i]) == Ok(name)
    && forall j :: 0 <= j < i ==> GetProvider(registry[j]).Ok? && GetProvider(registry[j]).value != name
  }

  /** `get_provider_to`: the first registered class whose `get_provider()` is
      `name`, else NotImplementedError "No provider to '<name>'". */
  function GetProviderTo(registry: seq<ProviderKind>, name: string): (r: Result<ProviderKind>)
    ensures r.Ok? ==> exists i :: FirstNamedAt(registry, i, name) && registry[i] == r.value
    ensures (forall i :: 0 <= i < |registry| ==> GetProvider(registry[i]).Ok? && GetProvider(registry[i]).value != name)
              ==> r == Err(NotImplementedError("No provider to '" + name + "'"))
    ensures Base !in registry && (exists i :: 0 <= i < |registry| && GetProvider(registry[i]) == Ok(name)) ==> r.Ok?
  {
    if |registry| == 0 then Err(NotImplementedError("No provider to '" + name + "'"))
    else
      match GetProvider(registry[0])
      case Err(e) => Err(e)
      case Ok(n) =>
        if n == name then
          assert FirstNamedAt(registry, 0, name);
          Ok(registry[0])
        else
          var rest := GetProviderTo(registry[1..], name);
          assert rest.Ok? ==> exists i :: FirstNamedAt(registry, i, name) && registry[i] == rest.value by {
            if rest.Ok? {
              var i :| FirstNamedAt(registry[1..], i, name) && registry[1..][i] == rest.value;
              assert registry[i + 1] == rest.value;
              forall j | 0 <= j < i + 1
                ensures GetProvider(registry[j]).Ok? && GetProvider(registry[j]).value != name
              {
                if j > 0 { assert registry[j] == registry[1..][j - 1]; }
              }
              assert FirstNamedAt(registry, i + 1, name);
            }
          }
          assert Base !in registry && (exists i :: 0 <= i < |registry| && GetProvider(registry[i]) == Ok(name)) ==>
                   exists i :: 0 <= i < |registry[1..]| && GetProvider(registry[1..][i]) == Ok(name) by {
            if Base !in registry && (exists i :: 0 <= i < |registry| && GetProvider(registry[i]) == Ok(name)) {
              var i :| 0 <= i < |registry| && GetProvider(registry[i]) == Ok(name);
              assert i > 0;
              assert registry[1..][i - 1] == registry[i];
            }
          }
          rest
  }

  /** With the package's registry, 'faas' resolves to the FaaS adapter and the
      other provider names are unknown. */
  lemma RegisteredLookups()
    ensures GetProviderTo(Registered, "faas") == Ok(FaaS)
    ensures GetProviderTo(Registered, "ebs") == Err(NotImplementedError("No provider to 'ebs'"))
    ensures GetProviderTo(Registered, "k8s") == Err(NotImplementedError("No provider to 'k8s'"))
  {
    assert "faas"[0] != "ebs"[0] && "faas"[0] != "k8s"[0];
    assert Registered[1..] == [];
    assert "No provider to '" + "ebs" + "'" == "No provider to 'ebs'";
    assert "No provider to '" + "k8s" + "'" == "No provider to 'k8s'";
  }

  /** Any adapter in a registry of adapters is found under its own name. */
  lemma {:induction false} LookupFindsEachAdapter(registry: seq<ProviderKind>, k: ProviderKind)
    requires k in registry && k != Base && Base !in registry
    ensures GetProviderTo(registry, GetProvider(k).value) == Ok(k)
  {
    if registry[0] != k {
      ProviderNamesDistinct(registry[0], k);
      LookupFindsEachAdapter(registry[1..], k);
    }
  }
}

=== FILE: team.dfy ===
/** Cost-allocation tags for a team: looked up from the team service by the
    team's name and shaped into six fixed keys, the sub-component chosen by
    the database engine. */
module Team {
  import opened Values

  /** The fixed component id every tag map carries. */
  const COMPONENT_ID: string := "ce72e379db9f43409fc15458dc961962"

  /** `SUB_COMPONENTS_BY_ENGINE`: redis and mysql share an id. */
  const SubComponents: map<string, string> := map[
    "redis" := "c672e379db9f43409fc15458dc96195f",
    "mongodb" := "ea26a7fddb9f43409fc15458dc96199b",
    "mysql" := "c672e379db9f43409fc15458dc96195f"]

  /** The six keys of a tag map. */
  const TagKeys: set<string> :=
    {"servico-de-negocio-id", "equipe-id", "componente-id", "sub-componente-id", "cliente-id", "consumo-detalhado"}

  /** A reply of the team service: whether it is OK, and its decoded body (or
      the exception decoding raises). */
  datatype TeamReply = TeamReply(ok: bool, body: Result<Json>)

  /** The team service, as its reply to `GET <api url>/slug/<slug of name>`;
      URL formatting and slugging happen inside it. */
  type TeamApi = (Json, Json) -> TeamReply

  /** `get_by_name`: the decoded body of an OK reply, and {} otherwise. */
  function GetByName(api: TeamApi, apiUrl: Json, name: Json): (r: Result<Json>)
    ensures !api(apiUrl, name).ok ==> r == Ok(JObj(map[]))
    ensures api(apiUrl, name).ok ==> r == api(apiUrl, name).body
  {
    var reply := api(apiUrl, name);
    if reply.ok then reply.body else Ok(JObj(map[]))
  }

  /** `engine.split('_')[0]`: the text before the first underscore. */
  function EnginePrefix(engine: string): (r: string)
    ensures IsPrefix(r, engine)
    ensures forall k :: 0 <= k < |r| ==> r[k] != '_'
    ensures r == engine || engine[|r|] == '_'
  {
    if |engine| == 0 || engine[0] == '_' then ""
    else [engine[0]] + EnginePrefix(engine[1..])
  }

  /** Whether the tags were looked up, and the tags or the exception. */
  datatype Tags = Tags(looked: bool, tags: Result<map<string, Json>>)

  /** The six tags of a team whose engine family has sub-component `sub`;
      a field the team lacks becomes None. */
  function SixTags(team: map<string, Json>, sub: string): (r: map<string, Json>)
    ensures r.Keys == TagKeys
    ensures r["servico-de-negocio-id"] == LookupOr(team, "servico-de-negocio", JNull)
    ensures r["equipe-id"] == LookupOr(team, "id", JNull)
    ensures r["componente-id"] == JStr(COMPONENT_ID)
    ensures r["sub-componente-id"] == JStr(sub)
    ensures r["cliente-id"] == LookupOr(team, "cliente", JNull)
    ensures r["consumo-detalhado"] == JBool(true)
  {
    map[
      "servico-de-negocio-id" := LookupOr(team, "servico-de-negocio", JNull),
      "equipe-id" := LookupOr(team, "id", JNull),
      "componente-id" := JStr(COMPONENT_ID),
      "sub-componente-id" := JStr(sub),
      "cliente-id" := LookupOr(team, "cliente", JNull),
      "consumo-detalhado" := JBool(true)]
  }

  /** The tag dict literal, evaluated in order: two `team.get` calls (a team
      that is not a dict has no `get`), the engine's family (an engine that is
      not a string has no `split`; an unknown family is a KeyError), then the
      client. */
  function TeamTags(team: Json, engine: Json): (r: Result<map<string, Json>>)
    ensures !team.JObj? ==> r == Err(AttributeError("get"))
    ensures team.JObj? && !engine.JStr? ==> r == Err(AttributeError("split"))
    ensures team.JObj? && engine.JStr? && EnginePrefix(engine.s) !in SubComponents ==>
              r == Err(KeyError(EnginePrefix(engine.s)))
    ensures r.Ok? <==> team.JObj? && engine.JStr? && EnginePrefix(engine.s) in SubComponents
    ensures r.Ok? ==> r.value == SixTags(team.fields, SubComponents[EnginePrefix(engine.s)])
  {
    if !team.JObj? then Err(AttributeError("get"))
    else if !engine.JStr? then Err(AttributeError("split"))
    else
      var prefix := EnginePrefix(engine.s);
      if prefix !in SubComponents then Err(KeyError(prefix))
      else Ok(SixTags(team.fields, SubComponents[prefix]))
  }

  /** `make_tags`: nothing without a team name or a service URL; nothing for
      an unknown team; otherwise the six tags, in the order the dict literal
      evaluates them. */
  function MakeTags(api: TeamApi, apiUrl: Json, teamName: Json, engine: Json): (r: Tags)
    ensures !Truthy(teamName) || !Truthy(apiUrl) ==> r == Tags(false, Ok(map[]))
    ensures r.looked <==> Truthy(teamName) && Truthy(apiUrl)
    ensures (r.looked && GetByName(api, apiUrl, teamName).Ok? && !Truthy(GetByName(api, apiUrl, teamName).value))
              ==> r.tags == Ok(map[])
    ensures r.looked && GetByName(api, apiUrl, teamName).Err? ==> r.tags == Err(GetByName(api, apiUrl, teamName).error)
    ensures r.tags.Ok? && r.tags.value != map[] ==>
              r.looked && GetByName(api, apiUrl, teamName).Ok? &&
              var team := GetByName(api, apiUrl, teamName).value;
              && team.JObj? && engine.JStr? && EnginePrefix(engine.s) in SubComponents
              && r.tags.value == SixTags(team.fields, SubComponents[EnginePrefix(engine.s)])
  {
    if !Truthy(teamName) || !Truthy(apiUrl) then Tags(false, Ok(map[]))
    else
      match GetByName(api, apiUrl, teamName)
      case Err(e) => Tags(true, Err(e))
      case Ok(team) =>
        if !Truthy(team) then Tags(true, Ok(map[]))
        else
          Tags(true, TeamTags(team, engine))
  }

  /** An engine name is tagged by its family: 'mongodb_4_2_3' is a mongodb
      engine, 'redis_5_0' a redis one and 'mysql_5_7' a mysql one. */
  lemma EngineFamilies()
    ensures EnginePrefix("mongodb_4_2_3") == "mongodb"
    ensures EnginePrefix("redis_5_0") == "redis"
    ensures EnginePrefix("mysql_5_7") == "mysql"
  {
    var names := ["mongodb", "redis", "mysql"];
    var versions := ["_4_2_3", "_5_0", "_5_7"];
    forall i | 0 <= i < 3
      ensures EnginePrefix(names[i] + versions[i]) == names[i]
    {
      PrefixBeforeUnderscore(names[i], versions[i]);
    }
    assert names[0] + versions[0] == "mongodb_4_2_3";
    assert names[1] + versions[1] == "redis_5_0";
    assert names[2] + versions[2] == "mysql_5_7";
  }

  /** Redis and mysql engines share a sub-component; mongodb has its own. */
  lemma SharedSubComponent()
    ensures SubComponents["redis"] == SubComponents["mysql"] != SubComponents["mongodb"]
  {
  }

  /** A name without underscores, then an underscore: the prefix is the name. */
  lemma {:induction false} PrefixBeforeUnderscore(name: string, rest: string)
    requires forall k :: 0 <= k < |name| ==> name[k] != '_'
    requires |rest| > 0 && rest[0] == '_'
    ensures EnginePrefix(name + rest) == name
  {
    if |name| > 0 {
      assert (name + rest)[1..] == name[1..] + rest;
      PrefixBeforeUnderscore(name[1..], rest);
    } else {
      assert name + rest == rest;
    }
  }

  /** For a known team, an engine outside redis, mongodb and mysql raises
      KeyError naming its prefix. */
  lemma UnknownEngineRaises(api: TeamApi, apiUrl: Json, teamName: Json, engine: string)
    requires Truthy(teamName) && Truthy(apiUrl)
    requires GetByName(api, apiUrl, teamName).Ok?
    requires var team := GetByName(api, apiUrl, teamName).value; team.JObj? && Truthy(team)
    requires EnginePrefix(engine) !in SubComponents
    ensures MakeTags(api, apiUrl, teamName, JStr(engine)) == Tags(true, Err(KeyError(EnginePrefix(engine))))
  {
  }

  /** For a known team, a family engine yields the six tags with the team's
      fields; missing team fields become None. */
  lemma KnownTeamTags(api: TeamApi, apiUrl: Json, teamName: Json, engine: string, team: map<string, Json>)
    requires Truthy(teamName) && Truthy(apiUrl)
    requires api(apiUrl, teamName) == TeamReply(true, Ok(JObj(team))) && |team| > 0
    requires EnginePrefix(engine) in SubComponents
    ensures var r := MakeTags(api, apiUrl, teamName, JStr(engine));
            && r.tags.Ok? && r.tags.value.Keys == TagKeys
            && ("cliente" !in team ==> r.tags.value["cliente-id"] == JNull)
            && r.tags.value["sub-componente-id"] == JStr(SubComponents[EnginePrefix(engine)])
  {
    assert Truthy(JObj(team));
    var r := MakeTags(api, apiUrl, teamName, JStr(engine));
    assert r.tags == Ok(SixTags(team, SubComponents[EnginePrefix(engine)]));
  }

  /** A team name the service does not answer OK gives no tags at all. */
  lemma UnknownTeamHasNoTags(api: TeamApi, apiUrl: Json, teamName: Json, engine: Json)
    requires Truthy(teamName) && Truthy(apiUrl) && !api(apiUrl, teamName).ok
    ensures MakeTags(api, apiUrl, teamName, engine) == Tags(true, Ok(map[]))
  {
  }
}

=== FILE: values.dfy ===
/** Python-level values shared by every module: optional values, JSON-like
    payloads (what Mongo documents, HTTP bodies and cloud replies hold),
    the exceptions the service raises, and a failure-compatible Result. */
module Values {

  datatype Option<+T> = None | Some(value: T)

  /** A JSON-like Python value. Objects are keyed maps: key order is not modelled. */
  datatype Json =
    | JNull
    | JBool(b: bool)
    | JInt(i: int)
    | JStr(s: string)
    | JList(items: seq<Json>)
    | JObj(fields: map<string, Json>)

  /** Python truthiness (`if x:`) of a JSON-like value. */
  predicate Truthy(j: Json)
  {
    match j
    case JNull => false
    case JBool(b) => b
    case JInt(i) => i != 0
    case JStr(s) => |s| > 0
    case JList(items) => |items| > 0
    case JObj(fields) => |fields| > 0
  }

  /** The payload an `APIError` carries. */
  datatype ApiDetail =
    | Content(content: Json)      // the reply body of a call with an unexpected status
    | RestoreFailed(result: Json) // 'Error while restoring snapshot - <result>'

  /** The exceptions raised by the service, each with its format arguments. */
  datatype Exc =
    | NotImplementedError(msg: string)
    | EnvironmentError(msg: string)
    | KeyError(key: string)
    | TypeError(what: string)
    | AttributeError(name: string)
    | IndexError(what: string)
    | ValueError(what: string)
    | ValidationError(field: string)
    | APIError(status: int, detail: ApiDetail)
    | OperationFailed(operationType: Json, error: Json)
    | OperationNotDone(operationType: Json, opStatus: Json)
    | ServiceError(msg: string)    // raised inside an abstracted library or backend call

  datatype Result<+T> = Ok(value: T) | Err(error: Exc) {
    predicate IsFailure() { Err? }

    function PropagateFailure<U>(): Result<U>
      requires Err?
    {
      Err(error)
    }

    function Extract(): T
      requires Ok?
    {
      value
    }
  }

  /** The TypeError messages of a subscription on a list, a string, and
      anything else that is not a dict. */
  const LIST_INDICES_MESSAGE: string := "list indices must be integers"
  const STRING_INDICES_MESSAGE: string := "string indices must be integers"
  const NOT_SUBSCRIPTABLE_MESSAGE: string := "object is not subscriptable"

  /** Python subscription `j[key]` with a string key. */
  function Index(j: Json, key: string): (r: Result<Json>)
    ensures r.Ok? <==> j.JObj? && key in j.fields
    ensures r.Ok? ==> r.value == j.fields[key]
    ensures j.JObj? && key !in j.fields ==> r == Err(KeyError(key))
  {
    match j
    case JObj(m) => if key in m then Ok(m[key]) else Err(KeyError(key))
    case JList(_) => Err(TypeError(LIST_INDICES_MESSAGE))
    case JStr(_) => Err(TypeError(STRING_INDICES_MESSAGE))
    case _ => Err(TypeError(NOT_SUBSCRIPTABLE_MESSAGE))
  }

  /** `dict[key]` on a document: the stored value, or KeyError. */
  function Lookup(m: map<string, Json>, key: string): (r: Result<Json>)
    ensures r.Ok? <==> key in m
    ensures r.Ok? ==> r.value == m[key]
    ensures r.Err? ==> r.error == KeyError(key)
  {
    if key in m then Ok(m[key]) else Err(KeyError(key))
  }

  /** `dict.get(key, default)` on a document. */
  function LookupOr(m: map<string, Json>, key: string, default: Json): (r: Json)
    ensures key in m ==> r == m[key]
    ensures key !in m ==> r == default
  {
    if key in m then m[key] else default
  }

  /** `s.startswith(p)`. */
  predicate IsPrefix(p: string, s: string)
  {
    |p| <= |s| && s[..|p|] == p
  }

  /** `p in s` on two strings: `p` occurs somewhere in `s`. */
  predicate IsSubstring(p: string, s: string)
  {
    exists k :: 0 <= k <= |s| - |p| && OccursAt(p, s, k)
  }

  predicate OccursAt(p: string, s: string, k: int)
  {
    0 <= k <= |s| - |p| && s[k..k + |p|] == p
  }

  function DigitChar(d: nat): (c: char)
    requires d < 10
    ensures '0' <= c <= '9'
    ensures c as int - '0' as int == d
  {
    "0123456789"[d]
  }

  predicate IsDigit(c: char)
  {
    '0' <= c <= '9'
  }

  /** The value of a string of decimal digits. */
  function DecimalValue(s: string): (n: nat)
    requires forall k :: 0 <= k < |s| ==> IsDigit(s[k])
  {
    if |s| == 0 then 0
    else
      assert IsDigit(s[|s| - 1]);
      DecimalValue(s[..|s| - 1]) * 10 + (s[|s| - 1] as int - '0' as int)
  }

  /** Python `str(n)` for a natural number: its decimal digits. */
  function NatToString(n: nat): (s: string)
    ensures |s| > 0
    ensures forall k :: 0 <= k < |s| ==> '0' <= s[k] <= '9'
    ensures n < 10 <==> |s| == 1
    decreases n
  {
    if n < 10 then [DigitChar(n)] else NatToString(n / 10) + [DigitChar(n % 10)]
  }

  /** Reading back the digits `str` writes gives the number. */
  lemma {:induction false} DecimalOfNatToString(n: nat)
    ensures DecimalValue(NatToString(n)) == n
    decreases n
  {
    if n >= 10 {
      var s := NatToString(n);
      assert s[..|s| - 1] == NatToString(n / 10);
      DecimalOfNatToString(n / 10);
    }
  }

  /** A non-empty run of decimal digits. */
  predicate DecimalText(s: string)
  {
    |s| > 0 && forall k :: 0 <= k < |s| ==> IsDigit(s[k])
  }

  /** The messages of `int()`'s ValueError and TypeError. */
  const INT_LITERAL_MESSAGE: string := "invalid literal for int() with base 10"
  const INT_ARGUMENT_MESSAGE: string := "int() argument must be a string, a bytes-like object or a real number"

  /** Python `int(x)` on a JSON-like value: ints as they are, bools as 0 or 1,
      strings of decimal digits by their value. */
  function PyInt(j: Json): (r: Result<int>)
    ensures j.JInt? ==> r == Ok(j.i)
    ensures j.JNull? || j.JList? || j.JObj? ==> r.Err? && r.error.TypeError?
    ensures j.JStr? && |j.s| == 0 ==> r.Err? && r.error.ValueError?
    ensures r.Ok? && j.JStr? ==> r.value >= 0
  {
    match j
    case JInt(i) => Ok(i)
    case JBool(b) => Ok(if b then 1 else 0)
    case JStr(s) =>
      if DecimalText(s) then Ok(DecimalValue(s))
      else Err(ValueError(INT_LITERAL_MESSAGE))
    case _ => Err(TypeError(INT_ARGUMENT_MESSAGE))
  }

  /** `int(str(n))` is `n` for a natural number. */
  lemma PyIntOfDecimalText(n: nat)
    ensures PyInt(JStr(NatToString(n))) == Ok(n)
  {
    DecimalOfNatToString(n);
  }

  /** Python `str(i)` for an integer: a minus sign only for negatives. */
  function IntToString(i: int): (s: string)
    ensures |s| > 0
    ensures i < 0 <==> s[0] == '-'
  {
    if i < 0 then "-" + NatToString(-i) else NatToString(i)
  }

  /** Python `str(j)` for a scalar JSON value; lists and objects are refused. */
  function ScalarStr(j: Json): (r: Result<string>)
    ensures r.Ok? <==> !j.JList? && !j.JObj?
    ensures j.JStr? ==> r == Ok(j.s)
  {
    match j
    case JNull => Ok("None")
    case JBool(b) => Ok(if b then "True" else "False")
    case JInt(i) => Ok(IntToString(i))
    case JStr(s) => Ok(s)
    case JList(_) => Err(TypeError("list id"))
    case JObj(_) => Err(TypeError("dict id"))
  }

  /** Python `repr` of a list of plain (quote-free) strings: `['a', 'b']`. */
  function ListRepr(xs: seq<string>): (r: string)
    ensures |r| >= 2 && r[0] == '[' && r[|r| - 1] == ']'
  {
    "[" + JoinQuoted(xs) + "]"
  }

  function JoinQuoted(xs: seq<string>): string
  {
    if |xs| == 0 then ""
    else if |xs| == 1 then "'" + xs[0] + "'"
    else "'" + xs[0] + "', " + JoinQuoted(xs[1..])
  }

  /** Index of the first element satisfying `p` (Mongo's `.first()` over a
      collection in natural order), or None when no element does. */
  function FirstIndex<T>(s: seq<T>, p: T -> bool): (r: Option<nat>)
    ensures r.Some? ==> r.value < |s| && p(s[r.value])
    ensures r.Some? ==> forall j :: 0 <= j < r.value ==> !p(s[j])
    ensures r.None? ==> forall j :: 0 <= j < |s| ==> !p(s[j])
  {
    if |s| == 0 then None
    else if p(s[0]) then Some(0)
    else
      match FirstIndex(s[1..], p)
      case None => None
      case Some(k) => Some(k + 1)
  }

  /** The elements of `s` that satisfy `p` (Mongo's `filter`). */
  function Filter<T(!new)>(s: seq<T>, p: T -> bool): (r: seq<T>)
    ensures forall x :: x in r <==> x in s && p(x)
    ensures |r| <= |s|
    ensures (forall i :: 0 <= i < |s| ==> !p(s[i])) ==> r == []
  {
    if |s| == 0 then []
    else if p(s[0]) then [s[0]] + Filter(s[1..], p)
    else Filter(s[1..], p)
  }
}
